=== FILE: README.md ===
# Trend analyser: product pipeline model

A Dafny model of the logic of a fashion-import trend analyser. The model
covers three pieces.

- **The `analyze-products` request handler.** It:
  - filters a five-item reference catalog by season and category;
  - gates each store page's extracted products on their images;
  - removes near-duplicate titles with a Jaccard word-set similarity;
  - keeps the ten best products per store by trend score;
  - merges the catalog and store products, shuffles them, and summarises the response.
- **The results page.** It covers the CSV export, the colour class of a priority badge, and the badge label.
- **The admin form.** It covers how the form text becomes the inserted reference record, and the form reset after a successful insert.

Network results become parameters:

- `outcome` is what fetching and analysing each store page produced.
- `imageOk` is the image probe.
- `choices` are the random numbers behind the shuffle.
- `parseInt` / `parseFloat` are the JavaScript parsers (`None` stands for `NaN`).
- `scoreText` is `Number.prototype.toString`.

Modules follow the program's structure:

| module | file | what it models |
|---|---|---|
| `Wrappers` | `wrappers.dfy` | `Option` and `Result` |
| `Text` | `text.dfy` | the JavaScript string built-ins the code uses: `trim`, `toLowerCase`, `includes`, `split` and `join` |
| `Seqs` | `seqs.dfy` | order-preserving filter, subsequences |
| `Products` | `products.dfy` | the product records |
| `Catalog` | `catalog.dfy` | the reference catalog, the facet filter, catalog priority |
| `Similarity` | `similarity.dfy` | `calculateTitleSimilarity` |
| `Dedup` | `dedup.dfy` | `removeDuplicates` |
| `Ranking` | `ranking.dfy` | the image gate, the sort by score, the top ten |
| `Handler` | `handler.dfy` | the whole request |
| `ResultsDisplay` | `results_display.dfy` | CSV export, priority colour and badge |
| `AdminPanel` | `admin_panel.dfy` | `handleSubmit` |

Three behaviours of the code are easy to misread:

- **The catalog is merged once.** The catalog products are validated once and placed in front of all store products before the shuffle. They are not merged per store (`Handler.Analyze`).
- **Only `urls` is read.** The handler reads `urls` only; a single `url` field has no effect (`Handler.LegacyUrlIgnored`). A body that carries only `url` is therefore rejected with "At least one URL is required".
- **Normalisation order.** The title normaliser lower-cases, then trims, then strips symbols. A title with a leading symbol followed by white space therefore keeps that white space, and its word set gains an empty word. Take a bare title whose normal form has n distinct words, where the first and last words each keep an ASCII letter, digit or underscore, so that the normal form neither begins nor ends with white space. Its similarity to the same title prefixed with a symbol and a space is n/(n+1), not 1: the word sets count a repeated word once, and only the twin's set holds the empty word. So for up to three such words both titles are kept, and from four on whichever of the two comes later in the list is dropped as a duplicate. When the bare title's first or last word loses all its characters to the strip, its own word set already holds the empty word, and the two titles can score 1. The model proves the one-word case, where the similarity is 0.5 (`Similarity.LeadingSymbolHalvesSimilarity`, `Handler.SymbolPrefixedTwinKept`).

## Model

| member | source | states |
|---|---|---|
| Catalog.FilterCatalog | supabase/functions/analyze-products/index.ts:77-87 | the catalog offered for a request is the order-preserving subsequence of entries passing both facets; an entry is present iff it is in the catalog and matches, and its multiplicity is kept |
| Catalog.CategoryMatchSymmetric | supabase/functions/analyze-products/index.ts:82-84 | for a request other than "todos", the category test gives the same answer with request and entry category swapped |
| Catalog.CategoryMatchesItself | supabase/functions/analyze-products/index.ts:82-84 | a requested category equal to the entry's up to case always matches |
| Catalog.SeasonFacet | supabase/functions/analyze-products/index.ts:78-80 | "todos" admits every entry, a "todo el año" entry matches every season, and otherwise an entry matches iff its season equals the requested one |
| Catalog.CategoryFacetEmpty | supabase/functions/analyze-products/index.ts:82-84 | "todos" admits every entry, and an empty category on either side matches anything, since every string includes the empty string |
| Catalog.WarmExcludesCold | supabase/functions/analyze-products/index.ts:78-80 | a "caliente" request never receives a "frio" entry |
| Catalog.CatalogPriority | supabase/functions/analyze-products/index.ts:330 | the priority is "high" exactly when the trend score is at least 9, "medium" exactly when it is at least 7.5 and below 9, and "low" exactly when it is below 7.5 |
| Catalog.CatalogPriorityMonotone | supabase/functions/analyze-products/index.ts:330 | a higher score never yields a lower priority |
| Catalog.ToProduct | supabase/functions/analyze-products/index.ts:322-331 | a catalog product carries the entry's image, score and computed priority, and no store URL |
| Catalog.ValidateCatalog | supabase/functions/analyze-products/index.ts:318-333 | the catalog products are exactly the converted entries whose image the validator accepts; there is one per accepted entry, and they keep the entries' order |
| Catalog.ValidatedImagesPresent | supabase/functions/analyze-products/index.ts:318-333 | entries that carry image URLs yield products that all have a non-empty image |
| Catalog.ReferenceImagesPresent | supabase/functions/analyze-products/index.ts:9-65 | every embedded reference entry has an image URL |
| Catalog.FilteredReferenceImagesPresent | supabase/functions/analyze-products/index.ts:77-87 | whatever the facets, every filtered reference entry has an image URL |
| Similarity.StripNonWord | supabase/functions/analyze-products/index.ts:118 | stripping `[^\w\s]` leaves only ASCII word characters and white space and never lengthens |
| Similarity.StripIsFilter | supabase/functions/analyze-products/index.ts:118 | stripping keeps exactly the ASCII word and white-space characters, in order: it is the order-preserving filter by that class |
| Similarity.Normalize | supabase/functions/analyze-products/index.ts:118 | the normal form is never longer than the title and holds only word or white-space characters, none upper-case |
| Similarity.Words | supabase/functions/analyze-products/index.ts:124-125 | a title's word set is never empty, so the union in the ratio is never empty |
| Similarity.Jaccard | supabase/functions/analyze-products/index.ts:126-129 | the ratio lies in [0, 1], is 1 iff the sets are equal, and is 0 iff they share nothing |
| Similarity.TitleSimilarity | supabase/functions/analyze-products/index.ts:117-130 | the early return for equal normal forms agrees with the Jaccard formula; the value is in [0, 1], is 1 iff the word sets agree, and is 0 iff they are disjoint |
| Similarity.SimilaritySymmetric | supabase/functions/analyze-products/index.ts:117-130 | the similarity does not depend on the order of the titles |
| Similarity.SameNormalFormFullySimilar | supabase/functions/analyze-products/index.ts:122 | titles with equal normal forms have similarity exactly 1 |
| Similarity.NormalizeWord | supabase/functions/analyze-products/index.ts:118 | a lower-case ASCII word is its own normal form |
| Similarity.NormalizeLeadingSymbol | supabase/functions/analyze-products/index.ts:118 | with lower-case, trim, then strip, a symbol, a space and a word normalise to the space and the word |
| Similarity.LeadingSymbolHalvesSimilarity | supabase/functions/analyze-products/index.ts:117-130 | such a title has similarity 0.5 with the bare word |
| Dedup.RemoveDuplicates | supabase/functions/analyze-products/index.ts:133-149 | the kept list holds only input products, keeps the first product of a non-empty input, and has no two near-duplicates |
| Dedup.RemoveDuplicatesIsSubseq | supabase/functions/analyze-products/index.ts:133-149 | the kept products appear in arrival order |
| Dedup.DroppedHasEarlierTwin | supabase/functions/analyze-products/index.ts:136-148 | every dropped product is more than 0.75 similar to a kept product that arrived earlier |
| Dedup.RemoveDuplicatesKeepsDistinct | supabase/functions/analyze-products/index.ts:133-149 | a list with no near-duplicates passes through unchanged |
| Dedup.RemoveDuplicatesIdempotent | supabase/functions/analyze-products/index.ts:133-149 | removing duplicates twice is the same as once |
| Dedup.KeptTitlesDiffer | supabase/functions/analyze-products/index.ts:136-148 | with a measure rating each title a near-duplicate of itself, no two kept products share a title |
| Dedup.SubmultisetKeepsApart | supabase/functions/analyze-products/index.ts:133-149 | for a symmetric reflexive measure, any sub-multiset of the kept list has no two near-duplicates in either order |
| Dedup.PairKept | supabase/functions/analyze-products/index.ts:136-148 | two products at most 0.75 similar are both kept |
| Ranking.ImageGate | supabase/functions/analyze-products/index.ts:282-295 | a product passes iff its image is present and non-empty and the validator accepts it; the order is kept, and each passing product occurs as often as in the input |
| Ranking.Insert | supabase/functions/analyze-products/index.ts:302 | inserting into a score-sorted list keeps it sorted and adds exactly the one product |
| Ranking.SortByScore | supabase/functions/analyze-products/index.ts:301-302 | the sort yields a permutation in non-increasing trend score |
| Ranking.TopProducts | supabase/functions/analyze-products/index.ts:301-303 | the top list has min(10, n) products, is non-increasing in score, is a sub-multiset of its input, and no product left out scores higher than a kept one |
| Ranking.TakeSorted | supabase/functions/analyze-products/index.ts:303 | a prefix of a sorted list is sorted, contained in it, and dominates what it leaves out |
| Handler.AnalyzeStore | supabase/functions/analyze-products/index.ts:170-311 | a store contributes nothing when the fetch, the model call or parsing failed; otherwise at most ten of its extracted products, each with an accepted image, sorted by score |
| Handler.AnalyzeStoreKeepsBest | supabase/functions/analyze-products/index.ts:282-303 | of an extracted page's gated and deduplicated products, the store keeps min(10, n), a sub-multiset of them, and no product left out scores higher than one kept |
| Handler.StoreKeepsApart | supabase/functions/analyze-products/index.ts:297-303 | no two products one store contributes are near-duplicates or share a title |
| Handler.FromStore | supabase/functions/analyze-products/index.ts:340-350 | missing colours and sizes become empty lists, and `store_url` is the page the product came from |
| Handler.StoreProducts | supabase/functions/analyze-products/index.ts:339-351 | a page contributes at most ten products, each tagged with that page's URL |
| Handler.StoreProductsShape | supabase/functions/analyze-products/index.ts:339-351 | a page contributes exactly its analysed products, one for one and in order, each put in response shape with `store_url` set to the page |
| Handler.AiProducts | supabase/functions/analyze-products/index.ts:339-351 | the store products number at most ten per URL |
| Handler.AiProductsFromUrls | supabase/functions/analyze-products/index.ts:339-351 | every store product in the response is tagged with a requested URL and is among that page's products |
| Handler.AiProductsAppend | supabase/functions/analyze-products/index.ts:339-351 | the store products for two URL lists joined are those of the first list followed by those of the second, so each page's products appear once and in URL order |
| Handler.AiProductsOne | supabase/functions/analyze-products/index.ts:339-351 | a single URL contributes exactly that page's products |
| Handler.AiProductsCoverPages | supabase/functions/analyze-products/index.ts:339-351 | conversely, every product of every requested page is among the response's store products |
| Handler.CatalogPart | supabase/functions/analyze-products/index.ts:318-333 | the catalog products of a response are exactly the converted entries that match both facets (absent facets meaning "todos") and whose image is accepted: one product per such entry, in catalog order (a subsequence of the converted facet-filtered catalog whose length is the number of its entries with an accepted image), never more than the catalog holds |
| Handler.CountHigh | supabase/functions/analyze-products/index.ts:360 | the "high" count is at most the product count; it is 0 iff no product is "high", and equals the product count iff every product is |
| Handler.CountHighAppend | supabase/functions/analyze-products/index.ts:360 | the "high" count of two lists joined is the sum of their counts, which with the one-product extremes makes it the exact number of "high" products of any list |
| Handler.Shuffle | supabase/functions/analyze-products/index.ts:354-355 | whatever the random draws, the shuffle is a permutation |
| Handler.Analyze | supabase/functions/analyze-products/index.ts:91-369 | a request without URLs fails with "At least one URL is required" before the key check, a missing key fails with "LOVABLE_API_KEY not configured", and a request with URLs and a key succeeds; then the response products are a permutation of catalog ++ store products; total is their count, recommended is the count of "high", stores is the number of URLs |
| Handler.SummaryIgnoresOrder | supabase/functions/analyze-products/index.ts:354-369 | the "high" count and total equal those of the unshuffled catalog plus store products, and the total is at most catalog size plus ten per URL |
| Handler.EveryProductHasImage | supabase/functions/analyze-products/index.ts:282-295 | every product of a successful response has a non-empty image URL |
| Handler.HandleRequest | supabase/functions/analyze-products/index.ts:67-376 | over the embedded catalog, the request succeeds iff it has URLs and the key is set; every returned product has an image and there are at most five plus ten per URL |
| Handler.LegacyUrlIgnored | supabase/functions/analyze-products/index.ts:73 | the response does not depend on a `url` field |
| Handler.SymbolPrefixedTwinKept | supabase/functions/analyze-products/index.ts:118 | a title with a leading symbol and space is not treated as a duplicate of the bare title; both are kept |
| ResultsDisplay.Row | src/components/ResultsDisplay.tsx:17-25 | a product's row has one cell per header column |
| ResultsDisplay.Line | src/components/ResultsDisplay.tsx:26 | a line splits back into its cells when no cell holds a comma |
| ResultsDisplay.ExportCsv | src/components/ResultsDisplay.tsx:15-26 | the file always begins with the header line, and is just that line when there are no products |
| ResultsDisplay.ExportLines | src/components/ResultsDisplay.tsx:16-27 | when no cell holds a line break, the file has exactly one more line than products, the first is the header, and line i+1 is product i's row |
| ResultsDisplay.HeaderFields | src/components/ResultsDisplay.tsx:17 | the header line splits into the seven column names |
| ResultsDisplay.RowFields | src/components/ResultsDisplay.tsx:18-27 | a comma-free product line splits back into title, price, "; "-joined colours and sizes, score, recommendation and priority |
| ResultsDisplay.CommaInTitleAddsCell | src/components/ResultsDisplay.tsx:27 | without quoting, a title holding one comma makes the line split into eight cells |
| ResultsDisplay.PriorityColor | src/components/ResultsDisplay.tsx:42-49 | "high" and "medium" get classes of their own; "low" and every other label share the grey class |
| ResultsDisplay.BadgeLabel | src/components/ResultsDisplay.tsx:118 | "Alta" iff "high", "Media" iff "medium", "Baja" otherwise |
| ResultsDisplay.BadgeAgreesWithColor | src/components/ResultsDisplay.tsx:42-49 | two labels share a colour iff they share a badge text |
| ResultsDisplay.CatalogBadge | src/components/ResultsDisplay.tsx:118 | a catalog product's badge reads "Alta" iff its score is at least 9, and is grey iff its score is below 7.5 |
| AdminPanel.ParseList | src/components/AdminPanel.tsx:55-56 | empty text gives the empty list; otherwise one item per comma-separated piece, and each item is its piece with only white space cut from either end, so it is trimmed and comma-free |
| AdminPanel.ParseJoin | src/components/AdminPanel.tsx:55-56 | parsing the comma-join of trimmed comma-free items gives the items back |
| AdminPanel.ParseListIdempotent | src/components/AdminPanel.tsx:55-56 | parsing, joining and parsing again changes nothing, except for a field of white space only: it parses to `[""]`, whose join is empty and re-parses to `[]` |
| AdminPanel.NullIfEmpty | src/components/AdminPanel.tsx:70-72 | the empty string becomes null, anything else passes unchanged |
| AdminPanel.NullIfEmptyInverse | src/components/AdminPanel.tsx:70-72 | reading a nullable field back with "" for null recovers the form text |
| AdminPanel.IntOr0 | src/components/AdminPanel.tsx:69 | the result is 0 iff parsing failed or gave 0, and otherwise the parsed value |
| AdminPanel.HandleSubmit | src/components/AdminPanel.tsx:55-93 | text fields are copied verbatim; colours and sizes are the parsed lists, whose lengths follow the comma count; estimated sales are the parsed integer or 0; empty description and notes become null and others pass unchanged; the form becomes the initial state exactly when the insert succeeded |
| AdminPanel.SubmitInitialForm | src/components/AdminPanel.tsx:35-48 | submitting the untouched form inserts store "shein", facets "todos", no colours or sizes, 0 sales and null texts |
| Text.Trim | supabase/functions/analyze-products/index.ts:118 | the trimmed string is a slice with only white space outside it, and it neither starts nor ends with white space |
| Text.TrimIdempotent | src/components/AdminPanel.tsx:55-56 | trimming twice removes nothing more |
| Text.SplitOn | src/components/AdminPanel.tsx:55-56 | splitting on one character gives one piece per occurrence plus one, none containing it |
| Text.SplitJoin | src/components/ResultsDisplay.tsx:27 | splitting undoes joining when no piece contains the separator |
| Text.JoinSplit | src/components/ResultsDisplay.tsx:27 | joining undoes splitting |
| Text.JoinExcludes | src/components/ResultsDisplay.tsx:21-22 | a character in no piece and not in the separator is not in the join |
| Text.SplitWhitespace | supabase/functions/analyze-products/index.ts:124-125 | splitting on white-space runs yields at least one piece, none holding white space |
| Text.SplitWhitespaceConcat | supabase/functions/analyze-products/index.ts:124-125 | the pieces, written one after the other, are exactly the input's non-space characters |
| Text.SplitWhitespaceInnerPieces | supabase/functions/analyze-products/index.ts:124-125 | only the first and last piece can be empty, and the first is not when the input starts with a non-space character |
| Text.Lower | supabase/functions/analyze-products/index.ts:83-84 | lower-casing keeps the length and maps each character |

## Left out

- **Page fetch, language-model call, prompt and `JSON.parse`** (supabase/functions/analyze-products/index.ts:152-279). These are network and foreign-model I/O. `UrlOutcome` stands for their result per URL.
- **The HTML sanitiser regexes** (supabase/functions/analyze-products/index.ts:177-182). Their output only feeds the prompt.
- **`validateImage`** (supabase/functions/analyze-products/index.ts:101-114) is a network probe. It is the `imageOk` parameter, assumed to answer the same for the same URL.
- **The `Math.random` comparator shuffle** is `Handler.Shuffle`, driven by arbitrary choices. Only "some permutation" is claimed.
- **`avg_trend_score`** (supabase/functions/analyze-products/index.ts:359, 367) is left out: it uses floating-point sum, division and `toFixed(1)`, and is `NaN` for an empty list. Trend scores are exact reals in the model.
- **`parseFloat` and `parseInt`** are parameters. `trend_score.toString()` is the `scoreText` parameter.
- **Untyped model replies.** Extracted products are taken as typed records. Missing `title`, non-numeric scores and non-array `colors` are not modelled; `colors`/`sizes` may only be absent or a list.
- **Persistence and UI plumbing.** Supabase insert/select/delete, `loadProductos`, `deleteProducto`, Blob download, toasts, React rendering, the CORS preflight and the error response body are not modelled.
- **`AnalysisForm.tsx`, `Features.tsx` and `Index.tsx`** contain a non-blank check and static content only.
- **Caching, hostname-based store names and a store facet** do not occur in the code.
- Text.Lower: only ASCII and Latin-1 upper-case letters are mapped. Other scripts' case mappings are not modelled.
- Handler.AiProducts: its own contract states only the bound of ten products per URL. Where each product comes from, that every page's products are included, and that the pages are concatenated once each in URL order are stated separately by `Handler.AiProductsFromUrls`, `Handler.AiProductsCoverPages`, `Handler.AiProductsAppend` and `Handler.AiProductsOne`.
- Handler.StoreProducts: each URL's outcome is a function of the URL text. So a URL listed twice yields the same products twice; the real handler fetches and analyses it twice and may get different answers.
- **Request fields sent as `null`** are not modelled, because JavaScript's destructuring default applies only to an absent field. A `null` season matches only the "todo el año" entries. A `null` categories throws a TypeError in the catalog filter, which runs before the URL check, so the request fails with a 500 response. A `urls` value that is a non-empty non-array, such as a string, passes the URL check and then throws at `urls.map` (supabase/functions/analyze-products/index.ts:152).
- Ranking.SortByScore: ECMAScript requires `Array.prototype.sort` to be stable. The model proves a permutation in non-increasing score, but not the relative order of equal-score products.
- Handler.Analyze: the summary's `avg_trend_score` field is absent (see above).
- AdminPanel.HandleSubmit: the record's `trend_score` is whatever the `parseFloat` parameter returns, and a failed insert leaves the form as it was. The error toast is not modelled.

=== FILE: admin_panel.dfy ===
/** The admin form that adds an entry to the reference catalog: how the
    form's text fields become the inserted record, and the form reset after
    a successful insert. */
module AdminPanel {
  import opened Wrappers
  import opened Text

  /** The form state; every field is the text of one input. */
  datatype FormData = FormData(
    titulo: string,
    precio: string,
    imagenUrl: string,
    tienda: string,
    temporada: string,
    categoria: string,
    colores: string,
    tallas: string,
    ventasEstimadas: string,
    descripcion: string,
    trendScore: string,
    notas: string)

  /** The form's initial state: store "shein", every facet "todos", score "7.0". */
  const InitialForm := FormData("", "", "", "shein", "todos", "todos", "", "", "", "", "7.0", "")

  /** The row sent to `productos_referencia`. A `None` in `descripcion` or
      `notas` is SQL null; a `None` trend score is `NaN`. */
  datatype NewReference = NewReference(
    titulo: string,
    precio: string,
    imagenUrl: string,
    tienda: string,
    temporada: string,
    categoria: string,
    colores: seq<string>,
    tallas: seq<string>,
    ventasEstimadas: int,
    descripcion: Option<string>,
    trendScore: Option<real>,
    notas: Option<string>)

  /** What one submit yields: the row it tries to insert and the form state
      afterwards. */
  datatype Submission = Submission(record: NewReference, next: FormData)

  /** No white space at either end. */
  predicate Trimmed(s: string) {
    |s| == 0 || (!IsSpace(s[0]) && !IsSpace(s[|s| - 1]))
  }

  lemma TrimmedKeeps(s: string)
    requires Trimmed(s)
    ensures Trim(s) == s
  {
    if |s| > 0 {
      TrimKeeps(s);
    }
  }

  /** `item` is `piece` with only white space cut from either end. */
  ghost predicate TrimmedFrom(piece: string, item: string) {
    exists i, j :: SpaceBounded(piece, item, i, j)
  }

  /** A comma-separated input as a list: empty text is the empty list;
      otherwise one item per comma-separated piece, empty pieces included,
      each item being its piece with only white space cut from either end. */
  function ParseList(s: string): (r: seq<string>)
    ensures s == "" <==> r == []
    ensures s != "" ==> |r| == CountChar(s, ',') + 1
    ensures forall k :: 0 <= k < |r| ==> Trimmed(r[k]) && ',' !in r[k]
    ensures s != "" ==> |r| == |SplitOn(s, ',')|
    ensures s != "" ==> forall k :: 0 <= k < |r| ==> TrimmedFrom(SplitOn(s, ',')[k], r[k])
  {
    if s == "" then []
    else
      var pieces := SplitOn(s, ',');
      var r := seq(|pieces|, i requires 0 <= i < |pieces| => Trim(pieces[i]));
      assert forall k :: 0 <= k < |r| ==> ',' !in r[k] && TrimmedFrom(pieces[k], r[k]) by {
        forall k | 0 <= k < |r| ensures ',' !in r[k] && TrimmedFrom(pieces[k], r[k]) {
          var i, j :| SpaceBounded(pieces[k], r[k], i, j);
          assert forall c :: c in r[k] ==> c in pieces[k];
        }
      }
      r
  }

  /** Parsing a comma-joined list of trimmed, comma-free items gives the
      items back, unless they join to the empty string. */
  lemma ParseJoin(items: seq<string>)
    requires |items| >= 1
    requires forall k :: 0 <= k < |items| ==> Trimmed(items[k]) && ',' !in items[k]
    requires Join(items, ",") != ""
    ensures ParseList(Join(items, ",")) == items
  {
    SplitJoin(items, ',');
    forall k | 0 <= k < |items| ensures Trim(items[k]) == items[k] {
      TrimmedKeeps(items[k]);
    }
  }

  /** Parsing, joining and parsing again changes nothing. */
  lemma ParseListIdempotent(s: string)
    requires Join(ParseList(s), ",") != ""
    ensures ParseList(Join(ParseList(s), ",")) == ParseList(s)
  {
    ParseJoin(ParseList(s));
  }

  /** `value || null`: the empty string becomes null, anything else passes. */
  function NullIfEmpty(s: string): (r: Option<string>)
    ensures r.None? <==> s == ""
    ensures r.Some? ==> r.value == s
  {
    if s == "" then None else Some(s)
  }

  /** Reading a nullable field back with "" for null recovers the form text. */
  lemma NullIfEmptyInverse(s: string)
    ensures NullIfEmpty(s).GetOr("") == s
  {
  }

  /** `parseInt(text) || 0`; `None` stands for `NaN`. Both a failed parse
      and a parsed zero give 0. */
  function IntOr0(parsed: Option<int>): (r: int)
    ensures parsed.Some? && parsed.value != 0 ==> r == parsed.value
    ensures parsed.None? ==> r == 0
    ensures r == 0 <==> parsed.None? || parsed.value == 0
  {
    if parsed.Some? && parsed.value != 0 then parsed.value else 0
  }

  /** `handleSubmit`. `parseInt` and `parseFloat` are the JavaScript
      parsers (`None` for `NaN`); `inserted` is whether the database
      accepted the row. Text fields are copied verbatim, the lists are
      parsed, empty optional texts become null, and only a successful insert
      resets the form. */
  function HandleSubmit(form: FormData, parseInt: string -> Option<int>, parseFloat: string -> Option<real>,
                        inserted: bool): (s: Submission)
    ensures s.next == if inserted then InitialForm else form
    ensures var rec := s.record;
      && rec.titulo == form.titulo && rec.precio == form.precio && rec.imagenUrl == form.imagenUrl
      && rec.tienda == form.tienda && rec.temporada == form.temporada && rec.categoria == form.categoria
    ensures s.record.descripcion.GetOr("") == form.descripcion && s.record.notas.GetOr("") == form.notas
    ensures |s.record.colores| == if form.colores == "" then 0 else CountChar(form.colores, ',') + 1
    ensures |s.record.tallas| == if form.tallas == "" then 0 else CountChar(form.tallas, ',') + 1
    ensures s.record.trendScore == parseFloat(form.trendScore)
    ensures s.record.ventasEstimadas == IntOr0(parseInt(form.ventasEstimadas))
    ensures s.record.descripcion == NullIfEmpty(form.descripcion) && s.record.notas == NullIfEmpty(form.notas)
    ensures s.record.colores == ParseList(form.colores) && s.record.tallas == ParseList(form.tallas)
  {
    var record := NewReference(
      form.titulo, form.precio, form.imagenUrl, form.tienda, form.temporada, form.categoria,
      ParseList(form.colores), ParseList(form.tallas),
      IntOr0(parseInt(form.ventasEstimadas)),
      NullIfEmpty(form.descripcion), parseFloat(form.trendScore), NullIfEmpty(form.notas));
    Submission(record, if inserted then InitialForm else form)
  }

  /** Submitting the untouched initial form inserts store "shein", both
      facets "todos", no colours or sizes, 0 estimated sales and null
      description and notes. */
  lemma SubmitInitialForm(parseInt: string -> Option<int>, parseFloat: string -> Option<real>, inserted: bool)
    requires parseInt("") == None
    ensures var rec := HandleSubmit(InitialForm, parseInt, parseFloat, inserted).record;
      && rec.tienda == "shein" && rec.temporada == "todos" && rec.categoria == "todos"
      && rec.colores == [] && rec.tallas == []
      && rec.ventasEstimadas == 0
      && rec.descripcion.None? && rec.notas.None?
  {
  }
}

=== FILE: catalog.dfy ===
/** The handler's static reference catalog, the season/category facet
    filter over it, and the score-to-priority rule for catalog items. */
module Catalog {
  import opened Wrappers
  import opened Text
  import opened Seqs
  import opened Products

  datatype CatalogEntry = CatalogEntry(
    titulo: string,
    precio: string,
    imagenUrl: string,
    temporada: string,
    categoria: string,
    colores: seq<string>,
    tallas: seq<string>,
    trendScore: real,
    recommendation: string)

  /** The facet value that disables a filter. */
  const All := "todos"
  /** The season of entries that match every requested season. */
  const YearRound := "todo el año"

  /** The five reference products the handler embeds. */
  const Reference: seq<CatalogEntry> := [
    CatalogEntry("Blusa Floral Verano", "$299",
      "https://images.unsplash.com/photo-1485968579580-b6d095142e6e?w=400",
      "caliente", "blusas", ["rosa", "blanco", "azul"], ["S", "M", "L", "XL"], 8.5,
      "Producto de catálogo - Blusa floral perfecta para temporada caliente, diseño fresco y ligero"),
    CatalogEntry("Vestido Casual Primavera", "$450",
      "https://images.unsplash.com/photo-1515372039744-b8f02a3ae446?w=400",
      "caliente", "vestidos", ["amarillo", "verde", "blanco"], ["XS", "S", "M", "L"], 9.0,
      "Producto de catálogo - Vestido ligero ideal para clima cálido, muy versátil"),
    CatalogEntry("Suéter Tejido Invierno", "$599",
      "https://images.unsplash.com/photo-1434389677669-e08b4cac3105?w=400",
      "frio", "sueteres", ["gris", "negro", "beige"], ["S", "M", "L", "XL"], 8.0,
      "Producto de catálogo - Suéter cálido de alta calidad para temporada fría"),
    CatalogEntry("Chamarra Acolchada", "$899",
      "https://images.unsplash.com/photo-1551028719-00167b16eac5?w=400",
      "frio", "chamarras", ["negro", "azul marino", "gris"], ["M", "L", "XL"], 9.5,
      "Producto de catálogo - Chamarra perfecta para invierno, diseño moderno"),
    CatalogEntry("Pantalón Mezclilla Clásico", "$499",
      "https://images.unsplash.com/photo-1542272604-787c3835535d?w=400",
      "todo el año", "pantalones", ["azul", "negro", "gris"], ["26", "28", "30", "32", "34"], 8.5,
      "Producto de catálogo - Pantalón versátil para cualquier temporada")
  ]

  /** Season facet: everything matches `All`, a year-round entry matches
      every season, otherwise the seasons must be equal. */
  predicate SeasonMatches(season: string, temporada: string) {
    season == All || temporada == YearRound || temporada == season
  }

  /** Either lower-cased string includes the other. */
  predicate EitherIncludes(a: string, b: string) {
    Contains(Lower(a), Lower(b)) || Contains(Lower(b), Lower(a))
  }

  /** Category facet: everything matches `All`, otherwise a case-insensitive
      substring test in either direction. */
  predicate CategoryMatches(categories: string, categoria: string) {
    categories == All || EitherIncludes(categoria, categories)
  }

  /** What the season facet admits: every entry for "todos", a year-round
      entry for every season, and otherwise exactly the entries of the
      requested season. */
  lemma SeasonFacet(season: string, temporada: string)
    ensures season == All ==> SeasonMatches(season, temporada)
    ensures temporada == YearRound ==> SeasonMatches(season, temporada)
    ensures season != All && temporada != YearRound ==> (SeasonMatches(season, temporada) <==> temporada == season)
  {
  }

  /** Every string includes the empty string, so an empty category on
      either side matches whatever the other side is. */
  lemma CategoryFacetEmpty(categories: string, categoria: string)
    ensures CategoryMatches(All, categoria)
    ensures CategoryMatches(categories, "") && CategoryMatches("", categoria)
  {
    assert OccursAt(Lower(categories), Lower(""), 0);
    assert OccursAt(Lower(categoria), Lower(""), 0);
  }

  predicate EntryMatches(season: string, categories: string, e: CatalogEntry) {
    SeasonMatches(season, e.temporada) && CategoryMatches(categories, e.categoria)
  }

  /** The catalog entries offered for a request: exactly the entries that
      pass both facets, in catalog order, none dropped and none repeated. */
  function FilterCatalog(entries: seq<CatalogEntry>, season: string, categories: string)
    : (r: seq<CatalogEntry>)
    ensures |r| <= |entries|
    ensures forall e :: e in r <==> e in entries && EntryMatches(season, categories, e)
    ensures forall e :: multiset(r)[e] == if EntryMatches(season, categories, e) then multiset(entries)[e] else 0
    ensures IsSubseq(r, entries)
  {
    FilterIsSubseq(e => EntryMatches(season, categories, e), entries);
    Filter(e => EntryMatches(season, categories, e), entries)
  }

  /** The substring test is symmetric, so which side is the request does
      not matter once the request is not `All`. */
  lemma CategoryMatchSymmetric(categories: string, categoria: string)
    requires categories != All && categoria != All
    ensures CategoryMatches(categories, categoria) <==> CategoryMatches(categoria, categories)
  {
  }

  /** A category equal to the entry's up to case always matches. */
  lemma CategoryMatchesItself(categories: string, categoria: string)
    requires Lower(categories) == Lower(categoria)
    ensures CategoryMatches(categories, categoria)
  {
    assert OccursAt(Lower(categoria), Lower(categories), 0);
  }

  /** A request for the warm season never receives a cold-season entry. */
  lemma WarmExcludesCold(entries: seq<CatalogEntry>, categories: string)
    ensures forall e :: e in FilterCatalog(entries, "caliente", categories) ==> e.temporada != "frio"
  {
  }

  /** Priority of a catalog item, from its trend score. */
  function CatalogPriority(score: real): (r: string)
    ensures r == "high" <==> score >= 9.0
    ensures r == "medium" <==> 7.5 <= score < 9.0
    ensures r == "low" <==> score < 7.5
  {
    if score >= 9.0 then "high" else if score >= 7.5 then "medium" else "low"
  }

  /** Rank of a priority label, low to high. */
  function PriorityRank(p: string): nat {
    if p == "high" then 2 else if p == "medium" then 1 else 0
  }

  /** A higher score never yields a lower catalog priority. */
  lemma CatalogPriorityMonotone(s1: real, s2: real)
    requires s1 <= s2
    ensures PriorityRank(CatalogPriority(s1)) <= PriorityRank(CatalogPriority(s2))
  {
  }

  /** The response shape of a catalog entry whose image was accepted. */
  function ToProduct(e: CatalogEntry): (p: Product)
    ensures p.image == Some(e.imagenUrl) && p.storeUrl.None?
    ensures p.priority == CatalogPriority(e.trendScore) && p.trendScore == e.trendScore
  {
    Product(e.titulo, e.precio, e.colores, e.tallas, Some(e.imagenUrl), e.trendScore,
            e.recommendation, CatalogPriority(e.trendScore), None)
  }

  /** The catalog part of the response: each filtered entry whose image the
      validator accepts, converted in order; rejected entries are dropped. */
  function ValidateCatalog(entries: seq<CatalogEntry>, imageOk: string -> bool): (r: seq<Product>)
    ensures |r| <= |entries|
    ensures forall p :: p in r <==> exists e :: e in entries && imageOk(e.imagenUrl) && p == ToProduct(e)
    ensures |r| == |Filter((e: CatalogEntry) => imageOk(e.imagenUrl), entries)|
    ensures IsSubseq(r, ToProducts(entries))
  {
    var ok := Filter((e: CatalogEntry) => imageOk(e.imagenUrl), entries);
    ToProductsMembers(ok);
    FilterIsSubseq((e: CatalogEntry) => imageOk(e.imagenUrl), entries);
    ToProductsSubseq(ok, entries);
    ToProducts(ok)
  }

  /** The response shape of each entry, in order. */
  function ToProducts(entries: seq<CatalogEntry>): (r: seq<Product>)
    ensures |r| == |entries|
    ensures forall i :: 0 <= i < |r| ==> r[i] == ToProduct(entries[i])
  {
    seq(|entries|, i requires 0 <= i < |entries| => ToProduct(entries[i]))
  }

  /** Converting keeps the order: a subsequence of entries converts to a
      subsequence of the converted entries. */
  lemma {:induction false} ToProductsSubseq(a: seq<CatalogEntry>, b: seq<CatalogEntry>)
    requires IsSubseq(a, b)
    ensures IsSubseq(ToProducts(a), ToProducts(b))
    decreases |b|
  {
    if |a| > 0 {
      var pa, pb := ToProducts(a), ToProducts(b);
      assert pa[..|a| - 1] == ToProducts(a[..|a| - 1]);
      assert pb[..|b| - 1] == ToProducts(b[..|b| - 1]);
      if a[|a| - 1] == b[|b| - 1] && IsSubseq(a[..|a| - 1], b[..|b| - 1]) {
        ToProductsSubseq(a[..|a| - 1], b[..|b| - 1]);
        assert pa[|pa| - 1] == pb[|pb| - 1];
      } else {
        ToProductsSubseq(a, b[..|b| - 1]);
      }
    }
  }

  lemma ToProductsMembers(entries: seq<CatalogEntry>)
    ensures forall p :: p in ToProducts(entries) <==> exists e :: e in entries && p == ToProduct(e)
  {
    var r := ToProducts(entries);
    forall p | p in r ensures exists e :: e in entries && p == ToProduct(e) {
      var i :| 0 <= i < |r| && r[i] == p;
      assert entries[i] in entries;
    }
    forall e | e in entries ensures ToProduct(e) in r {
      var i :| 0 <= i < |entries| && entries[i] == e;
      assert r[i] == ToProduct(e);
    }
  }

  /** Entries that all carry an image URL give products that all do. */
  lemma ValidatedImagesPresent(entries: seq<CatalogEntry>, imageOk: string -> bool)
    requires forall e :: e in entries ==> e.imagenUrl != ""
    ensures forall p :: p in ValidateCatalog(entries, imageOk) ==> p.image.Some? && p.image.value != ""
  {
    forall p | p in ValidateCatalog(entries, imageOk) ensures p.image.Some? && p.image.value != "" {
      var e :| e in entries && imageOk(e.imagenUrl) && p == ToProduct(e);
    }
  }

  /** Every reference entry has an image URL. */
  lemma ReferenceImagesPresent()
    ensures forall e :: e in Reference ==> e.imagenUrl != ""
  {
  }

  /** Whatever the facets, the filtered reference entries carry image URLs. */
  lemma FilteredReferenceImagesPresent(season: string, categories: string)
    ensures forall e :: e in FilterCatalog(Reference, season, categories) ==> e.imagenUrl != ""
  {
    ReferenceImagesPresent();
  }
}

=== FILE: dedup.dfy ===
/** The handler's greedy near-duplicate remover: products are taken in
    arrival order, and a product is kept unless its title is more than 0.75
    similar to a product kept before it. The title measure is a parameter
    `sim`; the handler passes `TitleSimilarity`. The properties below hold
    for any measure, except two: `KeptTitlesDiffer` needs every title to be
    fully similar to itself, and `SubmultisetKeepsApart` needs that and a
    symmetric measure. */
module Dedup {
  import opened Seqs
  import opened Products

  /** Similarity above which two titles count as the same product. */
  const Threshold: real := 0.75

  predicate Similar(sim: (string, string) -> real, u: RawProduct, p: RawProduct) {
    sim(u.title, p.title) > Threshold
  }

  /** Some already kept product is similar to `p`. */
  predicate IsDuplicate(sim: (string, string) -> real, unique: seq<RawProduct>, p: RawProduct) {
    exists i :: 0 <= i < |unique| && Similar(sim, unique[i], p)
  }

  /** No product is similar to one after it. */
  ghost predicate NoNearDuplicates(sim: (string, string) -> real, s: seq<RawProduct>) {
    forall i, j :: 0 <= i < j < |s| ==> !Similar(sim, s[i], s[j])
  }

  /** `removeDuplicates`: the state of `unique` after the loop has seen all
      of `products`. The result holds only input products, keeps the first
      product of a non-empty input, and has no two near-duplicates. */
  function RemoveDuplicates(sim: (string, string) -> real, products: seq<RawProduct>): (unique: seq<RawProduct>)
    ensures |unique| <= |products|
    ensures forall p :: p in unique ==> p in products
    ensures |products| > 0 ==> |unique| > 0 && unique[0] == products[0]
    ensures NoNearDuplicates(sim, unique)
    decreases |products|
  {
    if |products| == 0 then []
    else
      var init := products[..|products| - 1];
      var last := products[|products| - 1];
      var kept := RemoveDuplicates(sim, init);
      assert forall p :: p in init ==> p in products;
      if IsDuplicate(sim, kept, last) then kept else kept + [last]
  }

  /** The kept products appear in their arrival order. */
  lemma {:induction false} RemoveDuplicatesIsSubseq(sim: (string, string) -> real, products: seq<RawProduct>)
    ensures IsSubseq(RemoveDuplicates(sim, products), products)
    decreases |products|
  {
    if |products| == 0 {
    } else {
      var init, last := products[..|products| - 1], products[|products| - 1];
      var kept := RemoveDuplicates(sim, init);
      RemoveDuplicatesIsSubseq(sim, init);
      assert products == init + [last];
      if IsDuplicate(sim, kept, last) {
        SubseqExtend(kept, init, last);
      } else {
        SubseqSnoc(kept, init, last);
      }
    }
  }

  /** Every product that was dropped is similar to a product that arrived
      earlier and was kept. */
  lemma {:induction false} DroppedHasEarlierTwin(sim: (string, string) -> real, products: seq<RawProduct>)
    ensures forall i :: 0 <= i < |products| && products[i] !in RemoveDuplicates(sim, products) ==>
              exists k :: 0 <= k < i && products[k] in RemoveDuplicates(sim, products) && Similar(sim, products[k], products[i])
    decreases |products|, 1
  {
    if |products| > 0 {
      var n := |products| - 1;
      var unique := RemoveDuplicates(sim, products);
      forall i | 0 <= i < |products| && products[i] !in unique
        ensures exists k :: 0 <= k < i && products[k] in unique && Similar(sim, products[k], products[i])
      {
        if i < n {
          EarlierDropKept(sim, products, i);
        } else {
          DroppedLastHasTwin(sim, products);
        }
      }
    }
  }

  /** A product of the prefix dropped by the prefix's pass keeps its
      earlier twin in the full pass. */
  lemma {:induction false} EarlierDropKept(sim: (string, string) -> real, products: seq<RawProduct>, i: nat)
    requires i < |products| - 1
    requires products[i] !in RemoveDuplicates(sim, products)
    ensures exists k :: 0 <= k < i && products[k] in RemoveDuplicates(sim, products) && Similar(sim, products[k], products[i])
    decreases |products|, 0
  {
    var init := products[..|products| - 1];
    var kept := RemoveDuplicates(sim, init);
    DroppedHasEarlierTwin(sim, init);
    assert forall p :: p in kept ==> p in RemoveDuplicates(sim, products);
    assert init[i] == products[i];
    var k :| 0 <= k < i && init[k] in kept && Similar(sim, init[k], init[i]);
    assert products[k] == init[k];
  }

  /** A dropped last product is similar to a kept product before it. */
  lemma DroppedLastHasTwin(sim: (string, string) -> real, products: seq<RawProduct>)
    requires |products| > 0
    requires products[|products| - 1] !in RemoveDuplicates(sim, products)
    ensures exists k :: 0 <= k < |products| - 1 && products[k] in RemoveDuplicates(sim, products)
                        && Similar(sim, products[k], products[|products| - 1])
  {
    LastDroppedIsDuplicate(sim, products);
    TwinBefore(sim, products, RemoveDuplicates(sim, products));
  }

  /** If the kept products all come from the prefix and one of them is a
      twin of the last product, that twin sits at an earlier position. */
  lemma TwinBefore(sim: (string, string) -> real, products: seq<RawProduct>, unique: seq<RawProduct>)
    requires |products| > 0
    requires forall p :: p in unique ==> p in products[..|products| - 1]
    requires IsDuplicate(sim, unique, products[|products| - 1])
    ensures exists k :: 0 <= k < |products| - 1 && products[k] in unique
                        && Similar(sim, products[k], products[|products| - 1])
  {
    var n := |products| - 1;
    var j :| 0 <= j < |unique| && Similar(sim, unique[j], products[n]);
    assert unique[j] in unique;
    assert unique[j] in products[..n];
    var k :| 0 <= k < n && products[..n][k] == unique[j];
    assert products[k] == unique[j];
  }

  /** The last product is dropped only when some kept product is its twin. */
  lemma LastDroppedIsDuplicate(sim: (string, string) -> real, products: seq<RawProduct>)
    requires |products| > 0
    requires products[|products| - 1] !in RemoveDuplicates(sim, products)
    ensures RemoveDuplicates(sim, products) == RemoveDuplicates(sim, products[..|products| - 1])
    ensures IsDuplicate(sim, RemoveDuplicates(sim, products[..|products| - 1]), products[|products| - 1])
  {
    var last := products[|products| - 1];
    var kept := RemoveDuplicates(sim, products[..|products| - 1]);
    assert last in kept + [last];
  }

  /** A list without near-duplicates passes through unchanged. */
  lemma {:induction false} RemoveDuplicatesKeepsDistinct(sim: (string, string) -> real, products: seq<RawProduct>)
    requires NoNearDuplicates(sim, products)
    ensures RemoveDuplicates(sim, products) == products
    decreases |products|
  {
    if |products| > 0 {
      var n := |products| - 1;
      var init, last := products[..n], products[n];
      assert NoNearDuplicates(sim, init) by {
        forall i, j | 0 <= i < j < |init| ensures !Similar(sim, init[i], init[j]) {
          assert init[i] == products[i] && init[j] == products[j];
        }
      }
      RemoveDuplicatesKeepsDistinct(sim, init);
      assert !IsDuplicate(sim, init, last) by {
        forall i | 0 <= i < |init| ensures !Similar(sim, init[i], last) {
          assert init[i] == products[i];
        }
      }
      assert init + [last] == products;
    }
  }

  /** Removing duplicates a second time changes nothing. */
  lemma RemoveDuplicatesIdempotent(sim: (string, string) -> real, products: seq<RawProduct>)
    ensures RemoveDuplicates(sim, RemoveDuplicates(sim, products)) == RemoveDuplicates(sim, products)
  {
    RemoveDuplicatesKeepsDistinct(sim, RemoveDuplicates(sim, products));
  }

  /** When every title is fully similar to itself, as `TitleSimilarity`
      makes it, an exact repeat is always a near-duplicate, so no two kept
      products share a title. */
  lemma KeptTitlesDiffer(sim: (string, string) -> real, products: seq<RawProduct>)
    requires forall t :: sim(t, t) > Threshold
    ensures var unique := RemoveDuplicates(sim, products);
      forall i, j :: 0 <= i < j < |unique| ==> unique[i].title != unique[j].title
  {
    var unique := RemoveDuplicates(sim, products);
    forall i, j | 0 <= i < j < |unique|
      ensures unique[i].title != unique[j].title
    {
      if unique[i].title == unique[j].title {
        assert Similar(sim, unique[i], unique[j]);
      }
    }
  }

  /** A measure under which similarity does not depend on argument order
      and every title is a near-duplicate of itself. */
  ghost predicate SymmetricReflexive(sim: (string, string) -> real) {
    && (forall a, b :: sim(a, b) == sim(b, a))
    && (forall t :: sim(t, t) > Threshold)
  }

  /** A value at two positions occurs at least twice. */
  lemma RepeatCount<T>(s: seq<T>, i: int, j: int)
    requires 0 <= i < j < |s| && s[i] == s[j]
    ensures multiset(s)[s[i]] >= 2
  {
    assert s == s[..j] + [s[j]] + s[j + 1..];
    assert s[i] in s[..j];
  }

  /** A value that occurs at least twice sits at two positions. */
  lemma TwoCopies<T>(s: seq<T>, x: T) returns (p: int, q: int)
    requires multiset(s)[x] >= 2
    ensures 0 <= p < q < |s| && s[p] == x && s[q] == x
  {
    assert x in multiset(s);
    var k :| 0 <= k < |s| && s[k] == x;
    assert s == s[..k] + [x] + s[k + 1..];
    assert multiset(s[..k] + s[k + 1..])[x] >= 1;
    if x in s[..k] {
      p :| 0 <= p < k && s[..k][p] == x;
      q := k;
    } else {
      assert x in s[k + 1..];
      var m :| 0 <= m < |s| - k - 1 && s[k + 1..][m] == x;
      p, q := k, k + 1 + m;
    }
  }

  /** Under a symmetric, reflexive measure, any sub-multiset of a list
      without near-duplicates has no near-duplicates in either order. */
  lemma SubmultisetKeepsApart(sim: (string, string) -> real, unique: seq<RawProduct>, sub: seq<RawProduct>)
    requires SymmetricReflexive(sim)
    requires NoNearDuplicates(sim, unique)
    requires multiset(sub) <= multiset(unique)
    ensures forall i, j :: 0 <= i < |sub| && 0 <= j < |sub| && i != j ==> !Similar(sim, sub[i], sub[j])
  {
    forall i, j | 0 <= i < |sub| && 0 <= j < |sub| && i != j
      ensures !Similar(sim, sub[i], sub[j])
    {
      var x, y := sub[i], sub[j];
      if x == y {
        if i < j { RepeatCount(sub, i, j); } else { RepeatCount(sub, j, i); }
        var p, q := TwoCopies(unique, x);
        assert false;
      }
      assert x in multiset(unique) && y in multiset(unique);
      var p :| 0 <= p < |unique| && unique[p] == x;
      var q :| 0 <= q < |unique| && unique[q] == y;
      assert sim(x.title, y.title) == sim(y.title, x.title);
      if p < q {
        assert !Similar(sim, unique[p], unique[q]);
      } else {
        assert !Similar(sim, unique[q], unique[p]);
      }
    }
  }

  /** Two products that are not near-duplicates are both kept. */
  lemma PairKept(sim: (string, string) -> real, p1: RawProduct, p2: RawProduct)
    requires sim(p1.title, p2.title) <= Threshold
    ensures RemoveDuplicates(sim, [p1, p2]) == [p1, p2]
  {
    RemoveDuplicatesKeepsDistinct(sim, [p1, p2]);
  }
}

=== FILE: handler.dfy ===
/** The `analyze-products` request handler: request validation, the
    per-store pipeline, the merge of catalog and extracted products, and the
    response summary. Network results enter as parameters: the outcome of
    fetching and analysing each store page, the image validator, and the
    random choices of the shuffle. */
module Handler {
  import opened Wrappers
  import opened Seqs
  import opened Products
  import opened Catalog
  import opened Similarity
  import opened Dedup
  import opened Ranking
  import opened Text

  /** The JSON request body. `None` stands for a field that is absent
      (JavaScript `undefined`): `urls` may be absent, and an absent `season`
      or `categories` defaults to "todos". A field that is present with
      `null` or with a value of another type is not modelled. A legacy
      single `url` field may be present but the handler never reads it. */
  datatype Request = Request(
    urls: Option<seq<string>>,
    season: Option<string>,
    categories: Option<string>,
    url: Option<string>)

  /** What happened to one store page before the image gate. */
  datatype UrlOutcome =
    | PageFailed                                // the page fetch answered with a non-2xx status
    | AiFailed                                  // the chat-completion call answered with a non-2xx status
    | Unreadable                                // a thrown error: network failure, unparsable reply, no product list
    | Extracted(products: seq<RawProduct>)      // the parsed `products` of the model's reply

  datatype Summary = Summary(totalProducts: nat, recommendedImport: nat, storesAnalyzed: nat)

  datatype Analysis = Analysis(urls: seq<string>, products: seq<Product>, summary: Summary)

  const NoUrlsError := "At least one URL is required"
  const NoKeyError := "LOVABLE_API_KEY not configured"

  /** The products one store contributes: none when anything before the
      image gate failed; otherwise the ten best-scoring (or all, when fewer)
      of the gated and deduplicated products, each with an accepted image,
      ordered by non-increasing score. */
  function AnalyzeStore(outcome: UrlOutcome, imageOk: string -> bool): (r: seq<RawProduct>)
    ensures |r| <= TopCount
    ensures !outcome.Extracted? ==> r == []
    ensures forall p :: p in r ==> outcome.Extracted? && p in outcome.products && HasImage(p) && imageOk(p.image.value)
    ensures SortedByScore(r)
  {
    match outcome
    case Extracted(products) =>
      var validated := ImageGate(products, imageOk);
      var unique := RemoveDuplicates(TitleSimilarity, validated);
      var top := TopProducts(unique);
      assert forall p :: p in top ==> p in multiset(unique);
      top
    case _ => []
  }

  /** Of an extracted page's gated and deduplicated products, the store
      keeps the ten best-scoring ones (all of them when there are fewer):
      no product left out outscores one kept. */
  lemma AnalyzeStoreKeepsBest(products: seq<RawProduct>, imageOk: string -> bool)
    ensures var unique := RemoveDuplicates(TitleSimilarity, ImageGate(products, imageOk));
      var r := AnalyzeStore(Extracted(products), imageOk);
      && |r| == (if |unique| < TopCount then |unique| else TopCount)
      && multiset(r) <= multiset(unique)
      && forall x, y :: x in multiset(unique) - multiset(r) && y in r ==> x.trendScore <= y.trendScore
  {
  }

  /** The response shape of an extracted product: missing colours and sizes
      become empty lists and the store page becomes `store_url`. */
  function FromStore(p: RawProduct, url: string): (q: Product)
    ensures q.colors == p.colors.GetOr([]) && q.sizes == p.sizes.GetOr([])
    ensures q.storeUrl == Some(url)
    ensures q.title == p.title && q.image == p.image && q.priority == p.priority
  {
    Product(p.title, p.price, p.colors.GetOr([]), p.sizes.GetOr([]), p.image, p.trendScore,
            p.recommendation, p.priority, Some(url))
  }

  /** A store's products in response shape, in the store's order. */
  function FromStoreAll(store: seq<RawProduct>, url: string): (r: seq<Product>)
    ensures |r| == |store|
    ensures forall i :: 0 <= i < |r| ==> r[i] == FromStore(store[i], url)
  {
    seq(|store|, i requires 0 <= i < |store| => FromStore(store[i], url))
  }

  /** The products one store page contributes to the response: the page's
      analysed products in their order, each tagged with that page's URL. */
  function StoreProducts(url: string, outcome: string -> UrlOutcome, imageOk: string -> bool): (r: seq<Product>)
    ensures |r| <= TopCount
    ensures forall q :: q in r ==> q.storeUrl == Some(url)
  {
    var store := AnalyzeStore(outcome(url), imageOk);
    var r := FromStoreAll(store, url);
    assert forall q :: q in r ==> q.storeUrl == Some(url) by {
      forall q | q in r ensures q.storeUrl == Some(url) {
        var k :| 0 <= k < |r| && r[k] == q;
      }
    }
    r
  }

  /** A page contributes exactly its analysed products, one for one and in
      order, each put in response shape and tagged with the page's URL. */
  lemma StoreProductsShape(url: string, outcome: string -> UrlOutcome, imageOk: string -> bool)
    ensures var store := AnalyzeStore(outcome(url), imageOk);
      var r := StoreProducts(url, outcome, imageOk);
      && |r| == |store|
      && forall i :: 0 <= i < |r| ==> r[i] == FromStore(store[i], url)
  {
  }

  /** `allResults.flatMap(...)`: the stores' products in the order of
      `urls`, each tagged with the store page it came from. */
  function AiProducts(urls: seq<string>, outcome: string -> UrlOutcome, imageOk: string -> bool)
    : (r: seq<Product>)
    ensures |r| <= TopCount * |urls|
    decreases |urls|
  {
    if |urls| == 0 then []
    else
      var n := |urls| - 1;
      AiProducts(urls[..n], outcome, imageOk) + StoreProducts(urls[n], outcome, imageOk)
  }

  /** `q` carries the URL of the page it came from, that URL is one of
      `urls`, and `q` is among that page's products. */
  predicate FromRequestedPage(q: Product, urls: seq<string>, outcome: string -> UrlOutcome, imageOk: string -> bool) {
    q.storeUrl.Some? && q.storeUrl.value in urls && q in StoreProducts(q.storeUrl.value, outcome, imageOk)
  }

  /** Requesting the URLs of `a` and then those of `b` gives `a`'s store
      products followed by `b`'s: each page's products appear once, in the
      order of the URLs. */
  lemma AiProductsAppend(a: seq<string>, b: seq<string>, outcome: string -> UrlOutcome, imageOk: string -> bool)
    ensures AiProducts(a + b, outcome, imageOk) == AiProducts(a, outcome, imageOk) + AiProducts(b, outcome, imageOk)
  {
    var page := (u: string) => StoreProducts(u, outcome, imageOk);
    var all := (u: seq<string>) => AiProducts(u, outcome, imageOk);
    forall u: seq<string> | |u| > 0 ensures all(u) == all(u[..|u| - 1]) + page(u[|u| - 1]) {
    }
    ConcatenatedAppend(a, b, page, all);
  }

  /** A single URL contributes exactly its page's products. */
  lemma AiProductsOne(url: string, outcome: string -> UrlOutcome, imageOk: string -> bool)
    ensures AiProducts([url], outcome, imageOk) == StoreProducts(url, outcome, imageOk)
  {
  }

  /** For any `all` that appends the pages of its URLs in order, starting
      from nothing, `all` of two URL lists is the concatenation of each. */
  lemma {:induction false} ConcatenatedAppend<T>(a: seq<string>, b: seq<string>, page: string -> seq<T>, all: seq<string> -> seq<T>)
    requires all([]) == []
    requires forall u: seq<string> :: |u| > 0 ==> all(u) == all(u[..|u| - 1]) + page(u[|u| - 1])
    ensures all(a + b) == all(a) + all(b)
    decreases |b|
  {
    if |b| == 0 {
      assert a + b == a;
    } else {
      var n := |b| - 1;
      ConcatenatedAppend(a, b[..n], page, all);
      assert (a + b)[..|a + b| - 1] == a + b[..n];
      assert all(a + b) == all(a + b[..n]) + page(b[n]);
      assert all(b) == all(b[..n]) + page(b[n]);
      AppendRegroup(all(a), all(b[..n]), page(b[n]), all(a + b), all(b));
    }
  }

  /** Every store product in the response comes from a requested page. */
  lemma {:induction false} AiProductsFromUrls(urls: seq<string>, outcome: string -> UrlOutcome, imageOk: string -> bool)
    ensures forall q :: q in AiProducts(urls, outcome, imageOk) ==> FromRequestedPage(q, urls, outcome, imageOk)
  {
    var page := (u: string) => StoreProducts(u, outcome, imageOk);
    var all := (u: seq<string>) => AiProducts(u, outcome, imageOk);
    forall u: seq<string> | |u| > 0 ensures all(u) == all(u[..|u| - 1]) + page(u[|u| - 1]) {
    }
    forall q | q in AiProducts(urls, outcome, imageOk) ensures FromRequestedPage(q, urls, outcome, imageOk) {
      ConcatenatedFromPage(urls, q, page, all);
      var k :| 0 <= k < |urls| && q in page(urls[k]);
      assert q in StoreProducts(urls[k], outcome, imageOk);
      assert urls[k] in urls;
    }
  }

  /** For any `all` that appends the pages of its URLs in order, starting
      from nothing, an element of `all` of the URLs is on one URL's page. */
  lemma {:induction false} ConcatenatedFromPage<T>(urls: seq<string>, x: T, page: string -> seq<T>, all: seq<string> -> seq<T>)
    requires all([]) == []
    requires forall u: seq<string> :: |u| > 0 ==> all(u) == all(u[..|u| - 1]) + page(u[|u| - 1])
    requires x in all(urls)
    ensures exists k :: 0 <= k < |urls| && x in page(urls[k])
    decreases |urls|
  {
    if |urls| > 0 {
      var n := |urls| - 1;
      assert all(urls) == all(urls[..n]) + page(urls[n]);
      if x !in page(urls[n]) {
        ConcatenatedFromPage(urls[..n], x, page, all);
        var k :| 0 <= k < n && x in page(urls[..n][k]);
        assert urls[..n][k] == urls[k];
      }
    }
  }

  /** Conversely, every product a requested page contributes is in the
      response's store products. */
  lemma AiProductsCoverPages(urls: seq<string>, outcome: string -> UrlOutcome, imageOk: string -> bool)
    ensures forall k, q :: 0 <= k < |urls| && q in StoreProducts(urls[k], outcome, imageOk) ==>
              q in AiProducts(urls, outcome, imageOk)
  {
    forall k, q | 0 <= k < |urls| && q in StoreProducts(urls[k], outcome, imageOk)
      ensures q in AiProducts(urls, outcome, imageOk)
    {
      PageCovered(urls, k, q, outcome, imageOk);
    }
  }

  lemma PageCovered(urls: seq<string>, k: nat, q: Product, outcome: string -> UrlOutcome, imageOk: string -> bool)
    requires k < |urls| && q in StoreProducts(urls[k], outcome, imageOk)
    ensures q in AiProducts(urls, outcome, imageOk)
  {
    var page := (u: string) => StoreProducts(u, outcome, imageOk);
    var all := (u: seq<string>) => AiProducts(u, outcome, imageOk);
    forall u: seq<string> | |u| > 0 ensures all(u) == all(u[..|u| - 1]) + page(u[|u| - 1]) {
    }
    ConcatenatedPageCovered(urls, k, q, page, all);
  }

  /** For any `all` that appends the pages of its URLs in order, an element
      of one URL's page is in `all` of the URLs. */
  lemma {:induction false} ConcatenatedPageCovered<T>(urls: seq<string>, k: nat, x: T, page: string -> seq<T>, all: seq<string> -> seq<T>)
    requires forall u: seq<string> :: |u| > 0 ==> all(u) == all(u[..|u| - 1]) + page(u[|u| - 1])
    requires k < |urls| && x in page(urls[k])
    ensures x in all(urls)
    decreases |urls|
  {
    var n := |urls| - 1;
    assert all(urls) == all(urls[..n]) + page(urls[n]);
    if k < n {
      assert urls[..n][k] == urls[k];
      ConcatenatedPageCovered(urls[..n], k, x, page, all);
    }
  }

  /** The random reordering. `choices` stands for the random numbers drawn:
      each step moves one remaining product, picked by the next choice, to
      the output. Whatever the choices, the result is a permutation. */
  function Shuffle(s: seq<Product>, choices: seq<nat>): (r: seq<Product>)
    ensures multiset(r) == multiset(s)
    ensures |r| == |s|
    decreases |s|
  {
    if |s| == 0 then []
    else
      var k := (if |choices| > 0 then choices[0] else 0) % |s|;
      var rest := s[..k] + s[k + 1..];
      assert s == s[..k] + [s[k]] + s[k + 1..];
      [s[k]] + Shuffle(rest, if |choices| > 0 then choices[1..] else [])
  }

  predicate IsHigh(p: Product) {
    p.priority == "high"
  }

  /** The number of products with priority "high": zero exactly when no
      product is high, and the whole count exactly when every product is. */
  function CountHigh(products: seq<Product>): (r: nat)
    ensures r <= |products|
    ensures r == 0 <==> forall p :: p in products ==> !IsHigh(p)
    ensures r == |products| <==> forall p :: p in products ==> IsHigh(p)
  {
    var high := Filter(IsHigh, products);
    FilterKeepsAll(IsHigh, products);
    assert |high| > 0 ==> high[0] in high;
    |high|
  }

  /** The "high" count adds up over concatenation. With the extremes of
      `CountHigh` on one-product lists, this fixes the count of every list
      to its number of "high" products. */
  lemma CountHighAppend(a: seq<Product>, b: seq<Product>)
    ensures CountHigh(a + b) == CountHigh(a) + CountHigh(b)
  {
    FilterAppend(IsHigh, a, b);
  }

  /** The catalog products of a response: one product per reference entry
      matching the request's facets (missing facets mean "todos") whose
      image the validator accepts, in catalog order. */
  function CatalogPart(catalog: seq<CatalogEntry>, req: Request, imageOk: string -> bool): (r: seq<Product>)
    ensures |r| <= |catalog|
    ensures forall p :: p in r <==>
      exists e :: e in catalog && EntryMatches(req.season.GetOr(All), req.categories.GetOr(All), e)
                  && imageOk(e.imagenUrl) && p == ToProduct(e)
    ensures var offered := FilterCatalog(catalog, req.season.GetOr(All), req.categories.GetOr(All));
      && |r| == |Filter((e: CatalogEntry) => imageOk(e.imagenUrl), offered)|
      && IsSubseq(r, ToProducts(offered))
  {
    ValidateCatalog(FilterCatalog(catalog, req.season.GetOr(All), req.categories.GetOr(All)), imageOk)
  }

  /** The whole handler. A request without URLs is rejected before the
      credential check and before any store is processed; otherwise the
      response lists the shuffled catalog and store products, and the
      summary counts them, the "high" ones, and the requested URLs. */
  function Analyze(catalog: seq<CatalogEntry>, req: Request, apiKey: Option<string>, outcome: string -> UrlOutcome,
                   imageOk: string -> bool, choices: seq<nat>): (r: Result<Analysis, string>)
    ensures (req.urls.None? || |req.urls.value| == 0) ==> r == Failure(NoUrlsError)
    ensures (req.urls.Some? && |req.urls.value| > 0 && (apiKey.None? || apiKey.value == "")) ==> r == Failure(NoKeyError)
    ensures (req.urls.Some? && |req.urls.value| > 0 && apiKey.Some? && apiKey.value != "") ==> r.Success?
    ensures r.Success? ==> req.urls.Some? && r.value.urls == req.urls.value
    ensures r.Success? ==> multiset(r.value.products)
                           == multiset(CatalogPart(catalog, req, imageOk) + AiProducts(req.urls.value, outcome, imageOk))
    ensures r.Success? ==> r.value.summary.totalProducts == |r.value.products|
    ensures r.Success? ==> r.value.summary.recommendedImport == CountHigh(r.value.products)
    ensures r.Success? ==> r.value.summary.storesAnalyzed == |req.urls.value|
  {
    if req.urls.None? || |req.urls.value| == 0 then Failure(NoUrlsError)
    else if apiKey.None? || apiKey.value == "" then Failure(NoKeyError)
    else
      var urls := req.urls.value;
      var products := Shuffle(CatalogPart(catalog, req, imageOk) + AiProducts(urls, outcome, imageOk), choices);
      Success(Analysis(urls, products, Summary(|products|, CountHigh(products), |urls|)))
  }

  /** The deployed handler: `Analyze` over the embedded reference catalog.
      It succeeds exactly when the request has URLs and the key is set;
      every product it returns has an image URL, and it returns at most the
      five catalog products plus ten per store. */
  function HandleRequest(req: Request, apiKey: Option<string>, outcome: string -> UrlOutcome,
                         imageOk: string -> bool, choices: seq<nat>): (r: Result<Analysis, string>)
    ensures (req.urls.Some? && |req.urls.value| > 0 && apiKey.Some? && apiKey.value != "") <==> r.Success?
    ensures r.Success? ==> forall q :: q in r.value.products ==> q.image.Some? && q.image.value != ""
    ensures r.Success? ==> |r.value.products| <= |Reference| + TopCount * |r.value.urls|
  {
    ReferenceImagesPresent();
    ResponseFacts(Reference, req, apiKey, outcome, imageOk, choices);
    Analyze(Reference, req, apiKey, outcome, imageOk, choices)
  }

  /** The facts `HandleRequest` promises, for any catalog whose entries
      carry image URLs. */
  lemma ResponseFacts(catalog: seq<CatalogEntry>, req: Request, apiKey: Option<string>, outcome: string -> UrlOutcome,
                      imageOk: string -> bool, choices: seq<nat>)
    requires forall e :: e in catalog ==> e.imagenUrl != ""
    ensures var r := Analyze(catalog, req, apiKey, outcome, imageOk, choices);
      && (r.Success? ==> forall q :: q in r.value.products ==> q.image.Some? && q.image.value != "")
      && (r.Success? ==> |r.value.products| <= |catalog| + TopCount * |r.value.urls|)
  {
    if Analyze(catalog, req, apiKey, outcome, imageOk, choices).Success? {
      EveryProductHasImage(catalog, req, apiKey, outcome, imageOk, choices);
      SummaryIgnoresOrder(catalog, req, apiKey, outcome, imageOk, choices);
    }
  }

  /** The shuffle does not change the summary: the "high" count is the
      catalog's plus the stores', and the total is bounded by the catalog
      size plus ten per URL. */
  lemma SummaryIgnoresOrder(catalog: seq<CatalogEntry>, req: Request, apiKey: Option<string>, outcome: string -> UrlOutcome,
                            imageOk: string -> bool, choices: seq<nat>)
    requires Analyze(catalog, req, apiKey, outcome, imageOk, choices).Success?
    ensures var a := Analyze(catalog, req, apiKey, outcome, imageOk, choices).value;
      && a.summary.recommendedImport
         == CountHigh(CatalogPart(catalog, req, imageOk)) + CountHigh(AiProducts(req.urls.value, outcome, imageOk))
      && a.summary.totalProducts
         == |CatalogPart(catalog, req, imageOk)| + |AiProducts(req.urls.value, outcome, imageOk)|
      && a.summary.totalProducts <= |catalog| + TopCount * |req.urls.value|
  {
    var fromCatalog := CatalogPart(catalog, req, imageOk);
    var ai := AiProducts(req.urls.value, outcome, imageOk);
    var a := Analyze(catalog, req, apiKey, outcome, imageOk, choices).value;
    assert multiset(a.products) == multiset(fromCatalog + ai);
    FilterPermutationLength(IsHigh, a.products, fromCatalog + ai);
    FilterAppend(IsHigh, fromCatalog, ai);
  }

  /** Every product of a successful response has a non-empty image URL:
      catalog entries all carry one, and store products passed the gate. */
  lemma EveryProductHasImage(catalog: seq<CatalogEntry>, req: Request, apiKey: Option<string>, outcome: string -> UrlOutcome,
                             imageOk: string -> bool, choices: seq<nat>)
    requires forall e :: e in catalog ==> e.imagenUrl != ""
    requires Analyze(catalog, req, apiKey, outcome, imageOk, choices).Success?
    ensures forall q :: q in Analyze(catalog, req, apiKey, outcome, imageOk, choices).value.products ==>
              q.image.Some? && q.image.value != ""
  {
    var fromCatalog := CatalogPart(catalog, req, imageOk);
    var ai := AiProducts(req.urls.value, outcome, imageOk);
    var products := Analyze(catalog, req, apiKey, outcome, imageOk, choices).value.products;
    SameMembers(products, fromCatalog + ai);
    CatalogImagesPresent(catalog, req, imageOk);
    StoreImagesPresent(req.urls.value, outcome, imageOk);
  }

  lemma CatalogImagesPresent(catalog: seq<CatalogEntry>, req: Request, imageOk: string -> bool)
    requires forall e :: e in catalog ==> e.imagenUrl != ""
    ensures forall q :: q in CatalogPart(catalog, req, imageOk) ==> q.image.Some? && q.image.value != ""
  {
    ValidatedImagesPresent(FilterCatalog(catalog, req.season.GetOr(All), req.categories.GetOr(All)), imageOk);
  }

  lemma StoreImagesPresent(urls: seq<string>, outcome: string -> UrlOutcome, imageOk: string -> bool)
    ensures forall q :: q in AiProducts(urls, outcome, imageOk) ==> q.image.Some? && q.image.value != ""
  {
    AiProductsFromUrls(urls, outcome, imageOk);
    forall q | q in AiProducts(urls, outcome, imageOk) ensures q.image.Some? && q.image.value != "" {
      assert FromRequestedPage(q, urls, outcome, imageOk);
      OneStoreImagesPresent(q.storeUrl.value, outcome, imageOk);
    }
  }

  lemma OneStoreImagesPresent(url: string, outcome: string -> UrlOutcome, imageOk: string -> bool)
    ensures forall q :: q in StoreProducts(url, outcome, imageOk) ==> q.image.Some? && q.image.value != ""
  {
    var store := AnalyzeStore(outcome(url), imageOk);
    forall q | q in StoreProducts(url, outcome, imageOk) ensures q.image.Some? && q.image.value != "" {
      var k :| 0 <= k < |store| && q == FromStore(store[k], url);
      assert store[k] in store;
    }
  }

  /** `TitleSimilarity` is symmetric and rates every title a near-duplicate
      of itself. */
  lemma TitleSimilaritySymmetricReflexive()
    ensures SymmetricReflexive(TitleSimilarity)
  {
    forall a, b ensures TitleSimilarity(a, b) == TitleSimilarity(b, a) {
      SimilaritySymmetric(a, b);
    }
    forall t ensures TitleSimilarity(t, t) > Threshold {
      SameNormalFormFullySimilar(t, t);
    }
  }

  /** No two products one store contributes are near-duplicates, in either
      order, and so no two share a title. */
  lemma StoreKeepsApart(outcome: UrlOutcome, imageOk: string -> bool)
    ensures var r := AnalyzeStore(outcome, imageOk);
      forall i, j :: 0 <= i < |r| && 0 <= j < |r| && i != j ==>
        TitleSimilarity(r[i].title, r[j].title) <= Threshold && r[i].title != r[j].title
  {
    var r := AnalyzeStore(outcome, imageOk);
    TitleSimilaritySymmetricReflexive();
    if outcome.Extracted? {
      var unique := RemoveDuplicates(TitleSimilarity, ImageGate(outcome.products, imageOk));
      assert r == TopProducts(unique);
      SubmultisetKeepsApart(TitleSimilarity, unique, r);
      forall i, j | 0 <= i < |r| && 0 <= j < |r| && i != j
        ensures TitleSimilarity(r[i].title, r[j].title) <= Threshold && r[i].title != r[j].title
      {
        assert !Similar(TitleSimilarity, r[i], r[j]);
        SameNormalFormFullySimilar(r[i].title, r[i].title);
      }
    }
  }

  /** The legacy single `url` field has no effect on the response. */
  lemma LegacyUrlIgnored(catalog: seq<CatalogEntry>, req: Request, apiKey: Option<string>, outcome: string -> UrlOutcome,
                         imageOk: string -> bool, choices: seq<nat>)
    ensures Analyze(catalog, req, apiKey, outcome, imageOk, choices)
         == Analyze(catalog, req.(url := None), apiKey, outcome, imageOk, choices)
  {
  }

  /** Because trimming runs before symbols are stripped, a product whose
      title is a symbol, a white-space character and a word is not a
      near-duplicate of a later product titled with the word alone: both
      are kept. */
  lemma SymbolPrefixedTwinKept(p1: RawProduct, p2: RawProduct, c: char, sp: char)
    requires !Kept(c) && !IsUpper(c) && IsSpace(sp)
    requires |p2.title| > 0 && forall i :: 0 <= i < |p2.title| ==> IsWordChar(p2.title[i]) && !IsUpper(p2.title[i])
    requires p1.title == [c, sp] + p2.title
    ensures RemoveDuplicates(TitleSimilarity, [p1, p2]) == [p1, p2]
  {
    LeadingSymbolHalvesSimilarity(c, sp, p2.title);
    PairKept(TitleSimilarity, p1, p2);
  }
}

=== FILE: products.dfy ===
/** The product records that flow through the handler and reach the browser. */
module Products {
  import opened Wrappers

  /** One product as the language model's JSON reply describes it. The reply
      is trusted without a schema: `colors` and `sizes` may be absent, and
      `priority` is whatever label the model chose. */
  datatype RawProduct = RawProduct(
    title: string,
    price: string,
    colors: Option<seq<string>>,
    sizes: Option<seq<string>>,
    image: Option<string>,
    trendScore: real,
    recommendation: string,
    priority: string)

  /** One product of the response; catalog products carry no `store_url`. */
  datatype Product = Product(
    title: string,
    price: string,
    colors: seq<string>,
    sizes: seq<string>,
    image: Option<string>,
    trendScore: real,
    recommendation: string,
    priority: string,
    storeUrl: Option<string>)

  /** JavaScript truthiness of `product.image`: present and non-empty. */
  predicate HasImage(p: RawProduct) {
    p.image.Some? && p.image.value != ""
  }
}

=== FILE: ranking.dfy ===
/** The per-store product pipeline after the language model has replied:
    the image gate, then (after duplicate removal) the ten best products by
    trend score. */
module Ranking {
  import opened Seqs
  import opened Products

  /** The number of products kept per store. */
  const TopCount: nat := 10

  /** Products reach the next stage only when `image` is present and the
      image validator (an oracle standing for the network probe) accepts
      it; every other product is dropped, and the order is kept. */
  function ImageGate(products: seq<RawProduct>, imageOk: string -> bool): (r: seq<RawProduct>)
    ensures forall p :: p in r <==> p in products && HasImage(p) && imageOk(p.image.value)
    ensures IsSubseq(r, products)
    ensures forall p :: multiset(r)[p] == if HasImage(p) && imageOk(p.image.value) then multiset(products)[p] else 0
  {
    FilterIsSubseq((p: RawProduct) => HasImage(p) && imageOk(p.image.value), products);
    Filter((p: RawProduct) => HasImage(p) && imageOk(p.image.value), products)
  }

  /** Non-increasing in trend score. */
  ghost predicate SortedByScore(s: seq<RawProduct>) {
    forall i, j :: 0 <= i < j < |s| ==> s[i].trendScore >= s[j].trendScore
  }

  /** Inserts `p` into a list sorted by score, after every product whose
      score is at least `p`'s, so equal scores keep their arrival order. */
  function Insert(p: RawProduct, sorted: seq<RawProduct>): (r: seq<RawProduct>)
    requires SortedByScore(sorted)
    ensures SortedByScore(r)
    ensures forall q :: q in r <==> q == p || q in sorted
    ensures multiset(r) == multiset(sorted) + multiset{p}
    decreases |sorted|
  {
    if |sorted| == 0 then [p]
    else if sorted[0].trendScore < p.trendScore then
      SortedCons(p, sorted);
      [p] + sorted
    else
      var head, tail := sorted[0], sorted[1..];
      assert sorted == [head] + tail;
      SortedTail(sorted);
      var rest := Insert(p, tail);
      assert forall q :: q in rest ==> q.trendScore <= head.trendScore by {
        SortedHeadDominates(sorted);
      }
      SortedCons(head, rest);
      [head] + rest
  }

  lemma SortedTail(s: seq<RawProduct>)
    requires |s| > 0 && SortedByScore(s)
    ensures SortedByScore(s[1..])
  {
    forall i, j | 0 <= i < j < |s| - 1 ensures s[1..][i].trendScore >= s[1..][j].trendScore {
      assert s[1..][i] == s[i + 1] && s[1..][j] == s[j + 1];
    }
  }

  /** The head of a sorted list scores at least as much as anything after it. */
  lemma SortedHeadDominates(s: seq<RawProduct>)
    requires |s| > 0 && SortedByScore(s)
    ensures forall q :: q in s[1..] ==> q.trendScore <= s[0].trendScore
  {
    forall q | q in s[1..] ensures q.trendScore <= s[0].trendScore {
      var k :| 0 <= k < |s| - 1 && s[1..][k] == q;
      assert s[k + 1] == q;
    }
  }

  /** A product scoring at least as much as the head of a sorted list can
      be put in front of it. */
  lemma SortedCons(h: RawProduct, s: seq<RawProduct>)
    requires SortedByScore(s)
    requires forall q :: q in s ==> q.trendScore <= h.trendScore
    ensures SortedByScore([h] + s)
  {
    var r := [h] + s;
    forall i, j | 0 <= i < j < |r| ensures r[i].trendScore >= r[j].trendScore {
      assert r[j] == s[j - 1];
      if i > 0 {
        assert r[i] == s[i - 1];
      }
    }
  }

  /** `sort((a, b) => b.trend_score - a.trend_score)`: an insertion sort
      into non-increasing trend score, permuting its input. The order it
      gives products of equal score is not part of the contract. */
  function SortByScore(s: seq<RawProduct>): (r: seq<RawProduct>)
    ensures SortedByScore(r)
    ensures multiset(r) == multiset(s)
    ensures |r| == |s|
    decreases |s|
  {
    if |s| == 0 then []
    else
      assert s == s[..|s| - 1] + [s[|s| - 1]];
      var r := Insert(s[|s| - 1], SortByScore(s[..|s| - 1]));
      assert |r| == |multiset(r)|;
      r
  }

  /** `.slice(0, 10)` of the sorted list: as many products as there are, up
      to ten, in non-increasing score, each taken from the input, and no
      product left out scores higher than one that was kept. */
  function TopProducts(unique: seq<RawProduct>): (r: seq<RawProduct>)
    ensures |r| == if |unique| < TopCount then |unique| else TopCount
    ensures SortedByScore(r)
    ensures multiset(r) <= multiset(unique)
    ensures forall x, y :: x in multiset(unique) - multiset(r) && y in r ==> x.trendScore <= y.trendScore
  {
    var sorted := SortByScore(unique);
    var k := if |sorted| < TopCount then |sorted| else TopCount;
    TakeSorted(sorted, k);
    sorted[..k]
  }

  /** A prefix of a sorted list is sorted, is contained in it, and nothing
      after it scores higher than anything in it. */
  lemma TakeSorted(sorted: seq<RawProduct>, k: nat)
    requires SortedByScore(sorted) && k <= |sorted|
    ensures SortedByScore(sorted[..k])
    ensures multiset(sorted[..k]) <= multiset(sorted)
    ensures forall x, y :: x in multiset(sorted) - multiset(sorted[..k]) && y in sorted[..k] ==> x.trendScore <= y.trendScore
  {
    SortedPrefix(sorted, k);
    PrefixComplement(sorted, k);
    PrefixDominates(sorted, k);
    var r, rest := sorted[..k], sorted[k..];
    forall x, y | x in multiset(sorted) - multiset(r) && y in r
      ensures x.trendScore <= y.trendScore
    {
      assert x in multiset(rest);
    }
  }

  lemma SortedPrefix(sorted: seq<RawProduct>, k: nat)
    requires SortedByScore(sorted) && k <= |sorted|
    ensures SortedByScore(sorted[..k])
  {
    forall i, j | 0 <= i < j < k ensures sorted[..k][i].trendScore >= sorted[..k][j].trendScore {
      assert sorted[..k][i] == sorted[i] && sorted[..k][j] == sorted[j];
    }
  }

  /** What a prefix leaves out is exactly the rest of the list. */
  lemma PrefixComplement<T>(s: seq<T>, k: nat)
    requires k <= |s|
    ensures multiset(s[..k]) <= multiset(s)
    ensures multiset(s) - multiset(s[..k]) == multiset(s[k..])
  {
    assert s == s[..k] + s[k..];
  }

  lemma PrefixDominates(sorted: seq<RawProduct>, k: nat)
    requires SortedByScore(sorted) && k <= |sorted|
    ensures forall x, y :: x in sorted[k..] && y in sorted[..k] ==> x.trendScore <= y.trendScore
  {
    forall x, y | x in sorted[k..] && y in sorted[..k]
      ensures x.trendScore <= y.trendScore
    {
      var i :| 0 <= i < k && sorted[..k][i] == y;
      var j :| 0 <= j < |sorted| - k && sorted[k..][j] == x;
      assert sorted[i] == y && sorted[k + j] == x;
    }
  }
}

=== FILE: results_display.dfy ===
/** The results page: the CSV export of the product list and the colour
    and label of each product's priority badge. */
module ResultsDisplay {
  import opened Text
  import opened Products
  import Catalog

  /** The CSV header row. */
  const Header: seq<string> := ["Producto", "Precio", "Colores", "Tallas", "Score de Tendencia", "Recomendación", "Prioridad"]

  /** Separators: list values inside a cell, cells in a line, lines in the file. */
  const ListSep := "; "
  const CellSep := ','
  const LineSep := '\n'

  /** The cells of one product's row, one per header column. `scoreText`
      is JavaScript's `Number.prototype.toString` on the trend score. */
  function Row(p: Product, scoreText: real -> string): (r: seq<string>)
    ensures |r| == |Header|
  {
    [p.title, p.price, Join(p.colors, ListSep), Join(p.sizes, ListSep),
     scoreText(p.trendScore), p.recommendation, p.priority]
  }

  /** A row's cells joined with commas, without quoting or escaping. The
      line splits back into the cells only when no cell holds a comma. */
  function Line(row: seq<string>): (r: string)
    ensures |row| >= 1 && (forall k :: 0 <= k < |row| ==> CellSep !in row[k]) ==> SplitOn(r, CellSep) == row
  {
    assert |row| >= 1 && (forall k :: 0 <= k < |row| ==> CellSep !in row[k]) ==> SplitOn(Join(row, [CellSep]), CellSep) == row by {
      if |row| >= 1 && (forall k :: 0 <= k < |row| ==> CellSep !in row[k]) {
        SplitJoin(row, CellSep);
      }
    }
    Join(row, [CellSep])
  }

  /** The product lines, in the order of the product list. */
  function ProductLines(products: seq<Product>, scoreText: real -> string): (r: seq<string>)
    ensures |r| == |products|
    ensures forall i :: 0 <= i < |r| ==> r[i] == Line(Row(products[i], scoreText))
  {
    seq(|products|, i requires 0 <= i < |products| => Line(Row(products[i], scoreText)))
  }

  /** The exported file: the header line, then one line per product. The
      file always begins with the header line, and is just that line when
      there are no products. */
  function ExportCsv(products: seq<Product>, scoreText: real -> string): (r: string)
    ensures Line(Header) <= r
    ensures |products| == 0 ==> r == Line(Header)
  {
    var body := ProductLines(products, scoreText);
    if |body| == 0 then
      assert [Line(Header)] + body == [Line(Header)];
      Join([Line(Header)] + body, [LineSep])
    else
      JoinCons(Line(Header), body, [LineSep]);
      Join([Line(Header)] + body, [LineSep])
  }

  /** Every cell a product contributes to its row is free of `c`. */
  predicate CellsFree(p: Product, scoreText: real -> string, c: char) {
    && c !in p.title && c !in p.price
    && (forall k :: 0 <= k < |p.colors| ==> c !in p.colors[k])
    && (forall k :: 0 <= k < |p.sizes| ==> c !in p.sizes[k])
    && c !in scoreText(p.trendScore) && c !in p.recommendation && c !in p.priority
  }

  lemma RowFree(p: Product, scoreText: real -> string, c: char)
    requires c == CellSep || c == LineSep
    requires CellsFree(p, scoreText, c)
    ensures forall k :: 0 <= k < |Row(p, scoreText)| ==> c !in Row(p, scoreText)[k]
  {
    assert c !in ListSep;
    JoinExcludes(p.colors, ListSep, c);
    JoinExcludes(p.sizes, ListSep, c);
  }

  lemma HeaderFree(c: char)
    requires c == CellSep || c == LineSep
    ensures forall k :: 0 <= k < |Header| ==> c !in Header[k]
  {
  }

  /** A line of cells without the line separator contains none. */
  lemma LineFree(row: seq<string>)
    requires forall k :: 0 <= k < |row| ==> LineSep !in row[k]
    ensures LineSep !in Line(row)
  {
    JoinExcludes(row, [CellSep], LineSep);
  }

  /** When no cell holds a line break, the file has exactly one line more
      than there are products, the first line is the header, and line
      `i + 1` is the row of product `i`. */
  lemma ExportLines(products: seq<Product>, scoreText: real -> string)
    requires forall i :: 0 <= i < |products| ==> CellsFree(products[i], scoreText, LineSep)
    ensures var lines := SplitOn(ExportCsv(products, scoreText), LineSep);
      && |lines| == |products| + 1
      && lines[0] == Line(Header)
      && forall i :: 0 <= i < |products| ==> lines[i + 1] == Line(Row(products[i], scoreText))
  {
    var body := ProductLines(products, scoreText);
    var lines := [Line(Header)] + body;
    HeaderFree(LineSep);
    LineFree(Header);
    ProductLinesFree(products, scoreText);
    assert forall k :: 0 <= k < |lines| ==> LineSep !in lines[k] by {
      forall k | 0 <= k < |lines| ensures LineSep !in lines[k] {
        if k > 0 {
          assert lines[k] == body[k - 1];
        }
      }
    }
    SplitJoin(lines, LineSep);
  }

  lemma ProductLinesFree(products: seq<Product>, scoreText: real -> string)
    requires forall i :: 0 <= i < |products| ==> CellsFree(products[i], scoreText, LineSep)
    ensures forall i :: 0 <= i < |products| ==> LineSep !in ProductLines(products, scoreText)[i]
  {
    forall i | 0 <= i < |products| ensures LineSep !in ProductLines(products, scoreText)[i] {
      RowFree(products[i], scoreText, LineSep);
      LineFree(Row(products[i], scoreText));
    }
  }

  /** The header line splits into the seven column names. */
  lemma HeaderFields()
    ensures SplitOn(Line(Header), CellSep) == Header
    ensures |Header| == 7
  {
    HeaderFree(CellSep);
    SplitJoin(Header, CellSep);
  }

  /** When no cell holds a comma, a product line splits back into exactly
      its seven cells: title, price, the colours and the sizes each joined
      with "; ", the score text, the recommendation and the priority. */
  lemma RowFields(p: Product, scoreText: real -> string)
    requires CellsFree(p, scoreText, CellSep)
    ensures var cells := SplitOn(Line(Row(p, scoreText)), CellSep);
      && |cells| == |Header|
      && cells[0] == p.title && cells[1] == p.price
      && cells[2] == Join(p.colors, ListSep) && cells[3] == Join(p.sizes, ListSep)
      && cells[4] == scoreText(p.trendScore) && cells[5] == p.recommendation && cells[6] == p.priority
  {
    RowFree(p, scoreText, CellSep);
    SplitJoin(Row(p, scoreText), CellSep);
  }

  /** Without quoting, a title holding one comma shifts every later cell:
      the line splits into eight cells, not seven. */
  lemma CommaInTitleAddsCell(p: Product, scoreText: real -> string, a: string, b: string)
    requires p.title == a + [CellSep] + b
    requires CellSep !in a && CellSep !in b
    requires CellsFree(p.(title := ""), scoreText, CellSep)
    ensures |SplitOn(Line(Row(p, scoreText)), CellSep)| == |Header| + 1
  {
    var clean := p.(title := "");
    RowFree(clean, scoreText, CellSep);
    var rest := Row(p, scoreText)[1..];
    assert rest == Row(clean, scoreText)[1..];
    var split := [a, b] + rest;
    assert Row(p, scoreText) == [p.title] + rest;
    JoinCons(p.title, rest, [CellSep]);
    JoinCons(b, rest, [CellSep]);
    JoinCons(a, [b] + rest, [CellSep]);
    assert [a] + ([b] + rest) == split;
    assert Join(split, [CellSep]) == Line(Row(p, scoreText));
    assert forall k :: 0 <= k < |split| ==> CellSep !in split[k] by {
      forall k | 0 <= k < |split| ensures CellSep !in split[k] {
        if k >= 2 {
          assert split[k] == Row(clean, scoreText)[k - 1];
        }
      }
    }
    SplitJoin(split, CellSep);
  }

  const HighClass := "bg-green-500/10 text-green-500 border-green-500/20"
  const MediumClass := "bg-yellow-500/10 text-yellow-500 border-yellow-500/20"
  const LowClass := "bg-gray-500/10 text-gray-500 border-gray-500/20"

  /** `getPriorityColor`: "high" and "medium" have classes of their own;
      "low" and every unknown label share the grey class. */
  function PriorityColor(priority: string): (r: string)
    ensures r == HighClass <==> priority == "high"
    ensures r == MediumClass <==> priority == "medium"
    ensures r == LowClass <==> priority != "high" && priority != "medium"
  {
    match priority
    case "high" => HighClass
    case "medium" => MediumClass
    case "low" => LowClass
    case _ => LowClass
  }

  /** The badge text: "Alta" for "high", "Media" for "medium", "Baja" for
      anything else. */
  function BadgeLabel(priority: string): (r: string)
    ensures r == "Alta" <==> priority == "high"
    ensures r == "Media" <==> priority == "medium"
    ensures r == "Baja" <==> priority != "high" && priority != "medium"
  {
    if priority == "high" then "Alta" else if priority == "medium" then "Media" else "Baja"
  }

  /** Badge text and badge colour agree: two labels get the same colour
      exactly when they get the same text. */
  lemma BadgeAgreesWithColor(p1: string, p2: string)
    ensures PriorityColor(p1) == PriorityColor(p2) <==> BadgeLabel(p1) == BadgeLabel(p2)
  {
  }

  /** A catalog product's badge reads "Alta" exactly when its score is at
      least 9, and is grey exactly when its score is below 7.5. */
  lemma CatalogBadge(score: real)
    ensures BadgeLabel(Catalog.CatalogPriority(score)) == "Alta" <==> score >= 9.0
    ensures PriorityColor(Catalog.CatalogPriority(score)) == LowClass <==> score < 7.5
  {
  }
}

=== FILE: seqs.dfy ===
/** `Array.prototype.filter` and the subsequence relation it establishes. */
module Seqs {

  /** `a` can be obtained from `b` by deleting elements, keeping order. */
  ghost predicate IsSubseq<T>(a: seq<T>, b: seq<T>)
    decreases |b|
  {
    || |a| == 0
    || (&& |b| > 0
        && (|| (a[|a| - 1] == b[|b| - 1] && IsSubseq(a[..|a| - 1], b[..|b| - 1]))
            || IsSubseq(a, b[..|b| - 1])))
  }

  /** Everything in a subsequence occurs in the sequence it was taken from. */
  lemma {:induction false} SubseqMembers<T>(a: seq<T>, b: seq<T>)
    requires IsSubseq(a, b)
    ensures forall x :: x in a ==> x in b
    decreases |b|
  {
    if |a| > 0 {
      if a[|a| - 1] == b[|b| - 1] && IsSubseq(a[..|a| - 1], b[..|b| - 1]) {
        SubseqMembers(a[..|a| - 1], b[..|b| - 1]);
        assert a == a[..|a| - 1] + [a[|a| - 1]];
        assert b == b[..|b| - 1] + [b[|b| - 1]];
      } else {
        SubseqMembers(a, b[..|b| - 1]);
        assert b == b[..|b| - 1] + [b[|b| - 1]];
      }
    }
  }

  /** Appending the same element to both sides keeps the relation. */
  lemma SubseqSnoc<T>(a: seq<T>, b: seq<T>, x: T)
    requires IsSubseq(a, b)
    ensures IsSubseq(a + [x], b + [x])
  {
    assert (a + [x])[..|a|] == a;
    assert (b + [x])[..|b|] == b;
  }

  /** Appending an element to the larger side only keeps the relation. */
  lemma SubseqExtend<T>(a: seq<T>, b: seq<T>, x: T)
    requires IsSubseq(a, b)
    ensures IsSubseq(a, b + [x])
  {
    assert (b + [x])[..|b|] == b;
  }

  /** Every sequence is a subsequence of itself. */
  lemma {:induction false} SubseqRefl<T>(a: seq<T>)
    ensures IsSubseq(a, a)
    decreases |a|
  {
    if |a| > 0 {
      SubseqRefl(a[..|a| - 1]);
    }
  }

  /** `s.filter(keep)`: the elements satisfying `keep`, in their original
      order, each value as often as it occurs in `s`. */
  function Filter<T(!new)>(keep: T -> bool, s: seq<T>): (r: seq<T>)
    ensures |r| <= |s|
    ensures forall x :: x in r <==> x in s && keep(x)
    ensures forall x {:trigger multiset(r)[x]} :: multiset(r)[x] == if keep(x) then multiset(s)[x] else 0
    decreases |s|
  {
    if |s| == 0 then []
    else
      var init := s[..|s| - 1];
      var last := s[|s| - 1];
      assert s == init + [last];
      Filter(keep, init) + (if keep(last) then [last] else [])
  }

  /** The kept elements stay in their original order. */
  lemma {:induction false} FilterIsSubseq<T(!new)>(keep: T -> bool, s: seq<T>)
    ensures IsSubseq(Filter(keep, s), s)
    decreases |s|
  {
    if |s| > 0 {
      var init, last := s[..|s| - 1], s[|s| - 1];
      var f := Filter(keep, init);
      FilterIsSubseq(keep, init);
      assert s == init + [last];
      FilterSnoc(keep, init, last);
      if keep(last) {
        assert Filter(keep, s) == f + [last];
        SubseqSnoc(f, init, last);
      } else {
        assert Filter(keep, s) == f;
        SubseqExtend(f, init, last);
      }
    }
  }

  /** Filtering sequences that are permutations of each other gives
      results of equal length. */
  lemma FilterPermutationLength<T(!new)>(keep: T -> bool, s: seq<T>, t: seq<T>)
    requires multiset(s) == multiset(t)
    ensures |Filter(keep, s)| == |Filter(keep, t)|
  {
    var fs := Filter(keep, s);
    var ft := Filter(keep, t);
    assert multiset(fs) == multiset(ft);
    assert |multiset(fs)| == |fs|;
  }

  /** Filtering a sequence extended by one element. */
  lemma FilterSnoc<T(!new)>(keep: T -> bool, s: seq<T>, x: T)
    ensures Filter(keep, s + [x]) == Filter(keep, s) + (if keep(x) then [x] else [])
  {
    assert (s + [x])[..|s|] == s;
  }

  /** Filtering distributes over concatenation. */
  lemma {:induction false} FilterAppend<T(!new)>(keep: T -> bool, a: seq<T>, b: seq<T>)
    ensures Filter(keep, a + b) == Filter(keep, a) + Filter(keep, b)
    decreases |b|
  {
    if |b| == 0 {
      assert a + b == a;
    } else {
      var b', last := b[..|b| - 1], b[|b| - 1];
      FilterAppend(keep, a, b');
      assert b == b' + [last];
      assert a + b == (a + b') + [last];
      FilterSnoc(keep, a + b', last);
      FilterSnoc(keep, b', last);
      var tail: seq<T> := if keep(last) then [last] else [];
      AppendRegroup(Filter(keep, a), Filter(keep, b'), tail, Filter(keep, a + b), Filter(keep, b));
    }
  }

  /** Concatenation regrouped: `(x + y) + t` is `x + (y + t)`. The
      sequences are parameters so that a proof can pass large terms in as
      plain names and keep their definitions out of this step. */
  lemma AppendRegroup<T>(x: seq<T>, y: seq<T>, t: seq<T>, whole: seq<T>, right: seq<T>)
    requires whole == (x + y) + t && right == y + t
    ensures whole == x + right
  {
  }

  /** Equal tails behind the same head give equal sequences; the terms are
      parameters for the same reason as in `AppendRegroup`. */
  lemma SameHead<T>(h: seq<T>, whole: seq<T>, tail: seq<T>, f: seq<T>, ftail: seq<T>)
    requires whole == h + tail && f == h + ftail && tail == ftail
    ensures whole == f
  {
  }

  /** Filtering a sequence with one element in front. */
  lemma FilterCons<T(!new)>(keep: T -> bool, x: T, s: seq<T>)
    ensures Filter(keep, [x] + s) == (if keep(x) then [x] else []) + Filter(keep, s)
  {
    FilterAppend(keep, [x], s);
    FilterSnoc(keep, [], x);
    assert [] + [x] == [x];
  }

  /** Filtering a sequence cut in two at `d`. */
  lemma FilterSplitAt<T(!new)>(keep: T -> bool, s: seq<T>, d: nat)
    requires d <= |s|
    ensures Filter(keep, s) == Filter(keep, s[..d]) + Filter(keep, s[d..])
  {
    assert s == s[..d] + s[d..];
    FilterAppend(keep, s[..d], s[d..]);
  }

  /** Filtering a non-empty sequence, first element apart. */
  lemma FilterHead<T(!new)>(keep: T -> bool, s: seq<T>)
    requires |s| > 0
    ensures Filter(keep, s) == (if keep(s[0]) then [s[0]] else []) + Filter(keep, s[1..])
  {
    FilterCons(keep, s[0], s[1..]);
    FilterSame(keep, [s[0]] + s[1..], s);
  }

  /** Filtering equal sequences gives equal results; used to move from one
      spelling of a sequence to another without unfolding `Filter`. */
  lemma FilterSame<T(!new)>(keep: T -> bool, a: seq<T>, b: seq<T>)
    requires a == b
    ensures Filter(keep, a) == Filter(keep, b)
  {
  }

  /** A filter keeps every element exactly when every element satisfies it. */
  lemma {:induction false} FilterKeepsAll<T(!new)>(keep: T -> bool, s: seq<T>)
    ensures |Filter(keep, s)| == |s| <==> forall x :: x in s ==> keep(x)
    decreases |s|
  {
    if |s| > 0 {
      var init, last := s[..|s| - 1], s[|s| - 1];
      assert s == init + [last];
      FilterKeepsAll(keep, init);
      FilterSnoc(keep, init, last);
      if forall x :: x in s ==> keep(x) {
        assert forall x :: x in init ==> keep(x) by {
          forall x | x in init ensures keep(x) {
            assert x in s;
          }
        }
      }
    }
  }

  /** Nothing survives a filter that keeps no element of the sequence. */
  lemma FilterNone<T(!new)>(keep: T -> bool, s: seq<T>)
    requires forall i :: 0 <= i < |s| ==> !keep(s[i])
    ensures Filter(keep, s) == []
  {
  }

  /** Lists with the same multiset have the same members. */
  lemma SameMembers<T>(a: seq<T>, b: seq<T>)
    requires multiset(a) == multiset(b)
    ensures forall x :: x in a <==> x in b
  {
    forall x ensures x in a <==> x in b {
      assert x in a <==> x in multiset(a);
      assert x in b <==> x in multiset(b);
    }
  }
}

=== FILE: similarity.dfy ===
/** Title normalisation and the Jaccard word-set similarity the handler
    uses to recognise near-duplicate product titles. */
module Similarity {
  import opened Text
  import opened Seqs

  /** The characters `[^\w\s]` does not match. */
  predicate Kept(c: char) {
    IsWordChar(c) || IsSpace(c)
  }

  /** `str.replace(/[^\w\s]/g, '')`: keeps only word characters and white space. */
  function StripNonWord(s: string): (r: string)
    ensures |r| <= |s|
    ensures forall i :: 0 <= i < |r| ==> Kept(r[i])
  {
    if |s| == 0 then ""
    else
      var rest := StripNonWord(s[1..]);
      if Kept(s[0]) then [s[0]] + rest else rest
  }

  /** Stripping is the order-preserving filter on `Kept`: every word
      character and white-space character survives, in order. */
  lemma {:induction false} StripIsFilter(s: string)
    ensures StripNonWord(s) == Filter(Kept, s)
    decreases |s|
  {
    if |s| > 0 {
      StripIsFilter(s[1..]);
      FilterHead(Kept, s);
      if !Kept(s[0]) {
        assert [] + StripNonWord(s[1..]) == StripNonWord(s[1..]);
      }
    }
  }

  /** The handler's `normalize`: lower-case, then trim, then strip. The
      result holds only lower-case word characters and white space. */
  function Normalize(title: string): (r: string)
    ensures |r| <= |title|
    ensures forall c :: c in r ==> Kept(c) && !IsUpper(c)
  {
    var low := Lower(title);
    var t := Trim(low);
    assert forall c :: c in t ==> !IsUpper(c) by {
      var i, j :| SpaceBounded(low, t, i, j);
      forall c | c in t ensures !IsUpper(c) {
        var k :| i <= k < j && low[k] == c;
      }
    }
    StripIsFilter(t);
    StripNonWord(t)
  }

  /** The set of words of a normalised title, as `new Set(t.split(/\s+/))`. */
  function Words(t: string): (w: set<string>)
    ensures w != {}
  {
    var parts := SplitWhitespace(t);
    var w := set x | x in parts;
    assert parts[0] in w;
    w
  }

  /** Jaccard index of two word sets: shared words over all words. */
  function Jaccard(a: set<string>, b: set<string>): (r: real)
    requires a + b != {}
    ensures 0.0 <= r <= 1.0
    ensures r == 1.0 <==> a == b
    ensures r == 0.0 <==> a * b == {}
  {
    var shared, all := |a * b|, |a + b|;
    assert all == |a - b| + |b - a| + shared;
    assert shared == all ==> a == b by {
      if shared == all {
        assert |a - b| == 0 && |b - a| == 0;
        assert a - b == {} && b - a == {};
      }
    }
    assert a == b ==> shared == all by {
      if a == b {
        assert a * b == a + b;
      }
    }
    RatioFacts(shared, all);
    (shared as real) / (all as real)
  }

  /** A ratio of naturals `n / d` with `0 < d` and `n <= d`. */
  lemma RatioFacts(n: nat, d: nat)
    requires 0 < d && n <= d
    ensures 0.0 <= (n as real) / (d as real) <= 1.0
    ensures (n as real) / (d as real) == 1.0 <==> n == d
    ensures (n as real) / (d as real) == 0.0 <==> n == 0
  {
    var q := (n as real) / (d as real);
    assert q * (d as real) == n as real;
  }

  /** `calculateTitleSimilarity`: 1 for equal normalised titles, otherwise
      the Jaccard index of their word sets. The early return agrees with the
      general formula, the value is a ratio in [0, 1], and it is 1 exactly
      when the two titles have the same words. */
  function TitleSimilarity(title1: string, title2: string): (r: real)
    ensures r == Jaccard(Words(Normalize(title1)), Words(Normalize(title2)))
    ensures 0.0 <= r <= 1.0
    ensures r == 1.0 <==> Words(Normalize(title1)) == Words(Normalize(title2))
    ensures r == 0.0 <==> Words(Normalize(title1)) * Words(Normalize(title2)) == {}
  {
    var t1 := Normalize(title1);
    var t2 := Normalize(title2);
    if t1 == t2 then 1.0
    else Jaccard(Words(t1), Words(t2))
  }

  /** The similarity does not depend on the order of its arguments. */
  lemma SimilaritySymmetric(title1: string, title2: string)
    ensures TitleSimilarity(title1, title2) == TitleSimilarity(title2, title1)
  {
    var w1, w2 := Words(Normalize(title1)), Words(Normalize(title2));
    assert w1 * w2 == w2 * w1 && w1 + w2 == w2 + w1;
  }

  /** Titles with the same normal form are fully similar; in particular
      every title is fully similar to itself. */
  lemma SameNormalFormFullySimilar(title1: string, title2: string)
    requires Normalize(title1) == Normalize(title2)
    ensures TitleSimilarity(title1, title2) == 1.0
  {
  }

  /** Stripping keeps a string made only of word characters. */
  lemma {:induction false} StripKeepsWord(s: string)
    requires forall i :: 0 <= i < |s| ==> IsWordChar(s[i])
    ensures StripNonWord(s) == s
  {
    if |s| > 0 {
      StripKeepsWord(s[1..]);
      assert [s[0]] + s[1..] == s;
    }
  }

  /** Stripping works piece by piece. */
  lemma {:induction false} StripAppend(s: string, t: string)
    ensures StripNonWord(s + t) == StripNonWord(s) + StripNonWord(t)
  {
    if |s| == 0 {
      assert s + t == t;
    } else {
      var st := s + t;
      var head := if Kept(s[0]) then [s[0]] else [];
      assert st[0] == s[0] && st[1..] == s[1..] + t;
      assert StripNonWord(st) == head + StripNonWord(s[1..] + t);
      assert StripNonWord(s) == head + StripNonWord(s[1..]);
      StripAppend(s[1..], t);
    }
  }

  /** A lower-case word is its own normal form. */
  lemma NormalizeWord(w: string)
    requires |w| > 0 && forall i :: 0 <= i < |w| ==> IsWordChar(w[i]) && !IsUpper(w[i])
    ensures Normalize(w) == w
  {
    LowerKeeps(w);
    TrimKeeps(w);
    StripKeepsWord(w);
  }

  /** A symbol, a white-space character, then a lower-case word normalises
      to the white space and the word: trimming runs before the symbol is
      removed, so the white space stays. */
  lemma NormalizeLeadingSymbol(c: char, sp: char, w: string)
    requires !Kept(c) && !IsUpper(c) && IsSpace(sp)
    requires |w| > 0 && forall i :: 0 <= i < |w| ==> IsWordChar(w[i]) && !IsUpper(w[i])
    ensures Normalize([c, sp] + w) == [sp] + w
  {
    var t := [c, sp] + w;
    assert forall i :: 0 <= i < |t| ==> !IsUpper(t[i]) by {
      forall i | 0 <= i < |t| ensures !IsUpper(t[i]) {
        if i >= 2 {
          assert t[i] == w[i - 2];
        }
      }
    }
    LowerKeeps(t);
    assert t[|t| - 1] == w[|w| - 1];
    TrimKeeps(t);
    assert t == [c] + ([sp] + w);
    StripAppend([c], [sp] + w);
    assert StripNonWord([c]) == [];
    StripAppend([sp], w);
    assert StripNonWord([sp]) == [sp];
    StripKeepsWord(w);
  }

  /** A title made of a symbol, a white-space character and a lower-case
      word is only half similar to the word alone: the white space left in
      front yields an empty word, so the two are not near-duplicates. */
  lemma LeadingSymbolHalvesSimilarity(c: char, sp: char, w: string)
    requires !Kept(c) && !IsUpper(c) && IsSpace(sp)
    requires |w| > 0 && forall i :: 0 <= i < |w| ==> IsWordChar(w[i]) && !IsUpper(w[i])
    ensures TitleSimilarity([c, sp] + w, w) == 0.5
  {
    SimilarityAfterNormalizing(c, sp, w);
    WordsAfterSpace(sp, w);
    WordsOfWord(w);
    JaccardHalf(w);
  }

  lemma SimilarityAfterNormalizing(c: char, sp: char, w: string)
    requires !Kept(c) && !IsUpper(c) && IsSpace(sp)
    requires |w| > 0 && forall i :: 0 <= i < |w| ==> IsWordChar(w[i]) && !IsUpper(w[i])
    ensures TitleSimilarity([c, sp] + w, w) == Jaccard(Words([sp] + w), Words(w))
  {
    NormalizeLeadingSymbol(c, sp, w);
    NormalizeWord(w);
  }

  lemma WordsAfterSpace(sp: char, w: string)
    requires IsSpace(sp)
    requires |w| > 0 && forall i :: 0 <= i < |w| ==> IsWordChar(w[i])
    ensures Words([sp] + w) == {[], w}
  {
    SplitWhitespaceLeading(sp, w);
  }

  lemma WordsOfWord(w: string)
    requires forall i :: 0 <= i < |w| ==> IsWordChar(w[i])
    ensures Words(w) == {w}
  {
    SplitWhitespaceWord(w);
  }

  lemma JaccardHalf(w: string)
    requires w != []
    ensures Jaccard({[], w}, {w}) == 0.5
  {
    var a: set<string>, b: set<string> := {[], w}, {w};
    assert a * b == {w} && a + b == a;
    assert |a| == 2;
  }
}

=== FILE: text.dfy ===
/** The JavaScript string built-ins the handler and the front end rely on:
    `\s` and `\w` character classes, `toLowerCase`, `trim`, `split`,
    `join` and `includes`, on strings as sequences of characters. */
module Text {
  import opened Seqs

  /** JavaScript white space: what `\s` matches and what `String.prototype.trim`
      removes (the WhiteSpace and LineTerminator productions of ECMA-262). */
  predicate IsSpace(c: char) {
    || c == ' ' || c == '\t' || c == '\n' || c == '\U{000B}' || c == '\U{000C}' || c == '\r'
    || c == '\U{00A0}' || c == '\U{1680}' || ('\U{2000}' <= c <= '\U{200A}')
    || c == '\U{2028}' || c == '\U{2029}' || c == '\U{202F}' || c == '\U{205F}'
    || c == '\U{3000}' || c == '\U{FEFF}'
  }

  /** What `\w` matches in a regular expression without the `u` flag: ASCII only. */
  predicate IsWordChar(c: char) {
    ('a' <= c <= 'z') || ('A' <= c <= 'Z') || ('0' <= c <= '9') || c == '_'
  }

  /** Upper-case letters of ASCII and Latin-1 (U+00C0..U+00DE except the sign U+00D7). */
  predicate IsUpper(c: char) {
    ('A' <= c <= 'Z') || ('\U{00C0}' <= c <= '\U{00DE}' && c != '\U{00D7}')
  }

  function LowerChar(c: char): (r: char)
    ensures !IsUpper(r)
    ensures !IsUpper(c) ==> r == c
    ensures IsWordChar(c) <==> IsWordChar(r)
    ensures IsSpace(c) <==> IsSpace(r)
  {
    if IsUpper(c) then (c as int + 32) as char else c
  }

  /** `toLowerCase`, restricted to the letters `LowerChar` knows. */
  function Lower(s: string): (r: string)
    ensures |r| == |s|
    ensures forall i :: 0 <= i < |s| ==> r[i] == LowerChar(s[i])
  {
    seq(|s|, i requires 0 <= i < |s| => LowerChar(s[i]))
  }

  /** Drops the leading white space of `s`. */
  function TrimStart(s: string): (r: string)
    ensures |r| <= |s| && r == s[|s| - |r|..]
    ensures |r| == 0 || !IsSpace(r[0])
    ensures forall k :: 0 <= k < |s| - |r| ==> IsSpace(s[k])
  {
    if |s| > 0 && IsSpace(s[0]) then TrimStart(s[1..]) else s
  }

  /** `r` is the slice `s[i..j]` and everything of `s` outside it is white space. */
  predicate SpaceBounded(s: string, r: string, i: int, j: int) {
    && 0 <= i <= j <= |s| && r == s[i..j]
    && (forall k :: 0 <= k < i ==> IsSpace(s[k]))
    && (forall k :: j <= k < |s| ==> IsSpace(s[k]))
  }

  /** The first index at or after `i` that does not hold white space. */
  function SkipSpaces(s: string, i: nat): (j: nat)
    requires i <= |s|
    ensures i <= j <= |s|
    ensures forall k :: i <= k < j ==> IsSpace(s[k])
    ensures j == |s| || !IsSpace(s[j])
    decreases |s| - i
  {
    if i < |s| && IsSpace(s[i]) then SkipSpaces(s, i + 1) else i
  }

  /** The end of `s[lo..j]` once its trailing white space is dropped. */
  function BackSpaces(s: string, lo: nat, j: nat): (r: nat)
    requires lo <= j <= |s|
    ensures lo <= r <= j
    ensures forall k :: r <= k < j ==> IsSpace(s[k])
    ensures r == lo || !IsSpace(s[r - 1])
    decreases j
  {
    if j > lo && IsSpace(s[j - 1]) then BackSpaces(s, lo, j - 1) else j
  }

  /** `String.prototype.trim`: the slice of `s` left once white space is
      removed from both ends; only white space is removed. */
  function Trim(s: string): (r: string)
    ensures |r| == 0 || (!IsSpace(r[0]) && !IsSpace(r[|r| - 1]))
    ensures exists i, j :: SpaceBounded(s, r, i, j)
  {
    var i := SkipSpaces(s, 0);
    var j := BackSpaces(s, i, |s|);
    assert SpaceBounded(s, s[i..j], i, j);
    s[i..j]
  }

  /** Lower-casing works character by character. */
  lemma LowerAppend(s: string, t: string)
    ensures Lower(s + t) == Lower(s) + Lower(t)
  {
  }

  /** A string without upper-case letters is its own lower case. */
  lemma LowerKeeps(s: string)
    requires forall i :: 0 <= i < |s| ==> !IsUpper(s[i])
    ensures Lower(s) == s
  {
  }

  /** A string that neither starts nor ends with white space is its own trim. */
  lemma TrimKeeps(s: string)
    requires |s| > 0 && !IsSpace(s[0]) && !IsSpace(s[|s| - 1])
    ensures Trim(s) == s
  {
    assert SkipSpaces(s, 0) == 0;
    assert BackSpaces(s, 0, |s|) == |s|;
  }

  /** Trimming twice removes nothing more. */
  lemma {:induction false} TrimIdempotent(s: string)
    ensures Trim(Trim(s)) == Trim(s)
  {
    var t := Trim(s);
    if |t| > 0 {
      TrimKeeps(t);
    }
  }

  /** Number of occurrences of `c` in `s`. */
  function CountChar(s: string, c: char): nat {
    if |s| == 0 then 0 else (if s[0] == c then 1 else 0) + CountChar(s[1..], c)
  }

  /** `s.split(sep)` for a one-character separator: the pieces between
      consecutive separators, empty pieces included. */
  function SplitOn(s: string, sep: char): (r: seq<string>)
    ensures |r| >= 1
    ensures forall k :: 0 <= k < |r| ==> sep !in r[k]
    ensures |r| == CountChar(s, sep) + 1
  {
    if |s| == 0 then [""]
    else
      var rest := SplitOn(s[1..], sep);
      if s[0] == sep then [""] + rest
      else [[s[0]] + rest[0]] + rest[1..]
  }

  /** `parts.join(sep)`; the empty list joins to the empty string. */
  function Join(parts: seq<string>, sep: string): string {
    if |parts| == 0 then ""
    else if |parts| == 1 then parts[0]
    else parts[0] + sep + Join(parts[1..], sep)
  }

  /** A character absent from every piece and from the separator is absent
      from the joined string. */
  lemma {:induction false} JoinExcludes(parts: seq<string>, sep: string, c: char)
    requires forall k :: 0 <= k < |parts| ==> c !in parts[k]
    requires c !in sep
    ensures c !in Join(parts, sep)
  {
    if |parts| > 1 {
      JoinExcludes(parts[1..], sep, c);
    }
  }

  /** Joining a list with a first piece in front. */
  lemma JoinCons(x: string, rest: seq<string>, sep: string)
    requires |rest| >= 1
    ensures Join([x] + rest, sep) == x + sep + Join(rest, sep)
  {
    assert ([x] + rest)[1..] == rest;
  }

  /** Splitting undoes joining, as long as no piece contains the separator. */
  lemma {:induction false} SplitJoin(parts: seq<string>, sep: char)
    requires |parts| >= 1
    requires forall k :: 0 <= k < |parts| ==> sep !in parts[k]
    ensures SplitOn(Join(parts, [sep]), sep) == parts
  {
    if |parts| == 1 {
      SplitNoSep(parts[0], sep);
    } else {
      SplitJoin(parts[1..], sep);
      assert Join(parts, [sep]) == parts[0] + ([sep] + Join(parts[1..], [sep]));
      SplitAfterPiece(parts[0], [sep] + Join(parts[1..], [sep]), sep);
      assert ([sep] + Join(parts[1..], [sep]))[1..] == Join(parts[1..], [sep]);
      assert [parts[0]] + parts[1..] == parts;
    }
  }

  /** Joining undoes splitting. */
  lemma {:induction false} JoinSplit(s: string, sep: char)
    ensures Join(SplitOn(s, sep), [sep]) == s
  {
    if |s| > 0 {
      var rest := SplitOn(s[1..], sep);
      JoinSplit(s[1..], sep);
      if s[0] == sep {
        assert SplitOn(s, sep) == [""] + rest;
        assert ([""] + rest)[1..] == rest;
        assert Join([""] + rest, [sep]) == "" + [sep] + Join(rest, [sep]);
        assert s == [s[0]] + s[1..];
      } else {
        var r := [[s[0]] + rest[0]] + rest[1..];
        assert SplitOn(s, sep) == r;
        assert r[1..] == rest[1..];
        if |rest| == 1 {
          assert Join(r, [sep]) == [s[0]] + rest[0];
          assert Join(rest, [sep]) == rest[0];
        } else {
          assert Join(r, [sep]) == [s[0]] + rest[0] + [sep] + Join(rest[1..], [sep]);
          assert Join(rest, [sep]) == rest[0] + [sep] + Join(rest[1..], [sep]);
        }
        assert s == [s[0]] + s[1..];
      }
    }
  }

  /** A string without the separator splits into itself alone. */
  lemma {:induction false} SplitNoSep(a: string, sep: char)
    requires sep !in a
    ensures SplitOn(a, sep) == [a]
  {
    if |a| > 0 {
      SplitNoSep(a[1..], sep);
      assert [a[0]] + a[1..] == a;
    }
  }

  /** A separator-free prefix becomes the first piece. */
  lemma {:induction false} SplitAfterPiece(a: string, b: string, sep: char)
    requires sep !in a
    requires |b| > 0 && b[0] == sep
    ensures SplitOn(a + b, sep) == [a] + SplitOn(b[1..], sep)
  {
    if |a| == 0 {
      assert a + b == b;
    } else {
      SplitAfterPiece(a[1..], b, sep);
      assert (a + b)[1..] == a[1..] + b;
      assert [a[0]] + a[1..] == a;
    }
  }

  /** `hay.includes(needle)`; every string includes the empty string. */
  predicate Contains(hay: string, needle: string) {
    exists i :: 0 <= i <= |hay| - |needle| && OccursAt(hay, needle, i)
  }

  /** `needle` occurs in `hay` starting at index `i`. */
  predicate OccursAt(hay: string, needle: string, i: int) {
    0 <= i <= |hay| - |needle| && hay[i..i + |needle|] == needle
  }

  /** `s.split(/\s+/)`: the pieces between maximal runs of white space. A
      leading or trailing run yields an empty first or last piece, and the
      empty string yields one empty piece. */
  function SplitWhitespace(s: string): (r: seq<string>)
    ensures |r| >= 1
    ensures forall k, c :: 0 <= k < |r| && c in r[k] ==> !IsSpace(c)
    decreases |s|
  {
    if |s| == 0 then [""]
    else if IsSpace(s[0]) then [""] + SplitWhitespace(TrimStart(s))
    else
      var rest := SplitWhitespace(s[1..]);
      [[s[0]] + rest[0]] + rest[1..]
  }

  /** Only the first and the last piece can be empty, and the first is not
      when the input starts with a non-space character. */
  lemma {:induction false} SplitWhitespaceInnerPieces(s: string)
    ensures |s| > 0 && !IsSpace(s[0]) ==> SplitWhitespace(s)[0] != ""
    ensures forall k :: 0 < k < |SplitWhitespace(s)| - 1 ==> SplitWhitespace(s)[k] != ""
    decreases |s|
  {
    if |s| == 0 {
    } else if IsSpace(s[0]) {
      var t := TrimStart(s);
      var rest := SplitWhitespace(t);
      SplitWhitespaceInnerPieces(t);
      var r := [""] + rest;
      assert SplitWhitespace(s) == r;
      if |t| == 0 {
        assert rest == [""];
      }
      forall k | 0 < k < |r| - 1 ensures r[k] != "" {
        assert r[k] == rest[k - 1];
        if k == 1 {
          assert |t| > 0 && !IsSpace(t[0]);
        }
      }
    } else {
      var rest := SplitWhitespace(s[1..]);
      SplitWhitespaceInnerPieces(s[1..]);
      var r := [[s[0]] + rest[0]] + rest[1..];
      assert SplitWhitespace(s) == r;
      assert |r| == |rest|;
      forall k | 0 < k < |r| - 1 ensures r[k] != "" {
        assert r[k] == rest[k];
      }
    }
  }

  predicate NotSpace(c: char) {
    !IsSpace(c)
  }

  /** The pieces written one after the other. */
  function Concat(parts: seq<string>): string
    decreases |parts|
  {
    if |parts| == 0 then "" else parts[0] + Concat(parts[1..])
  }

  /** Splitting on white space loses exactly the white space: the pieces,
      written one after the other, are the input's other characters. */
  lemma {:induction false} SplitWhitespaceConcat(s: string)
    ensures Concat(SplitWhitespace(s)) == Filter(NotSpace, s)
    decreases |s|
  {
    if |s| == 0 {
      assert Concat([""]) == "" + Concat([]);
    } else if IsSpace(s[0]) {
      SplitWhitespaceConcat(TrimStart(s));
      ConcatAfterSpace(s);
    } else {
      SplitWhitespaceConcat(s[1..]);
      ConcatAfterWordChar(s);
    }
  }

  lemma ConcatCons(x: string, rest: seq<string>)
    ensures Concat([x] + rest) == x + Concat(rest)
  {
    assert ([x] + rest)[1..] == rest;
  }

  /** The step of `SplitWhitespaceConcat` for a leading white-space run. */
  lemma ConcatAfterSpace(s: string)
    requires |s| > 0 && IsSpace(s[0])
    requires Concat(SplitWhitespace(TrimStart(s))) == Filter(NotSpace, TrimStart(s))
    ensures Concat(SplitWhitespace(s)) == Filter(NotSpace, s)
  {
    var t := TrimStart(s);
    var d := |s| - |t|;
    SplitSpaceConcat(s);
    FilterSplitAt(NotSpace, s, d);
    FilterNone(NotSpace, s[..d]);
    SameHead("", Concat(SplitWhitespace(s)), Concat(SplitWhitespace(t)), Filter(NotSpace, s), Filter(NotSpace, t));
  }

  lemma SplitSpaceConcat(s: string)
    requires |s| > 0 && IsSpace(s[0])
    ensures Concat(SplitWhitespace(s)) == Concat(SplitWhitespace(TrimStart(s)))
  {
    ConcatCons("", SplitWhitespace(TrimStart(s)));
  }

  /** The step of `SplitWhitespaceConcat` for a leading other character. */
  lemma ConcatAfterWordChar(s: string)
    requires |s| > 0 && !IsSpace(s[0])
    requires Concat(SplitWhitespace(s[1..])) == Filter(NotSpace, s[1..])
    ensures Concat(SplitWhitespace(s)) == Filter(NotSpace, s)
  {
    SplitWordCharConcat(s);
    FilterHead(NotSpace, s);
    SameHead([s[0]], Concat(SplitWhitespace(s)), Concat(SplitWhitespace(s[1..])), Filter(NotSpace, s), Filter(NotSpace, s[1..]));
  }

  lemma SplitWordCharConcat(s: string)
    requires |s| > 0 && !IsSpace(s[0])
    ensures Concat(SplitWhitespace(s)) == [s[0]] + Concat(SplitWhitespace(s[1..]))
  {
    var rest := SplitWhitespace(s[1..]);
    var head, tail := rest[0], rest[1..];
    assert SplitWhitespace(s) == [[s[0]] + head] + tail;
    ConcatCons([s[0]] + head, tail);
    assert rest == [head] + tail;
    ConcatCons(head, tail);
    AppendRegroup([s[0]], head, Concat(tail), Concat(SplitWhitespace(s)), Concat(rest));
  }

  /** A string without white space is a single piece. */
  lemma {:induction false} SplitWhitespaceWord(w: string)
    requires forall i :: 0 <= i < |w| ==> !IsSpace(w[i])
    ensures SplitWhitespace(w) == [w]
  {
    if |w| > 0 {
      SplitWhitespaceWord(w[1..]);
      assert [w[0]] + w[1..] == w;
    }
  }

  /** A leading white-space character before a word yields an empty first piece. */
  lemma SplitWhitespaceLeading(sp: char, w: string)
    requires IsSpace(sp)
    requires |w| > 0 && forall i :: 0 <= i < |w| ==> !IsSpace(w[i])
    ensures SplitWhitespace([sp] + w) == [[], w]
  {
    TrimStartOne(sp, w);
    SplitWhitespaceWord(w);
  }

  /** One white-space character in front of a word is trimmed away. */
  lemma TrimStartOne(sp: char, w: string)
    requires IsSpace(sp)
    requires |w| > 0 && !IsSpace(w[0])
    ensures TrimStart([sp] + w) == w
  {
    assert ([sp] + w)[1..] == w;
  }
}

=== FILE: wrappers.dfy ===
/** Option and Result, the failure-carrying datatypes the rest of the model
    uses for JavaScript's absent values, `NaN` and thrown errors. */
module Wrappers {

  /** `None` stands for an absent (`undefined`) value. A `null` is read as
      `None` only where the code itself maps it to a default with `x || d`,
      as for a product's `colors` and `sizes`. */
  datatype Option<+T> = None | Some(value: T) {

    /** The value, or `default` when it is absent (JavaScript's `x || d`
        on a value that is never falsy when present). */
    function GetOr(default: T): T {
      match this
      case Some(v) => v
      case None => default
    }
  }

  /** A computation that either succeeds with a value or fails with an error message. */
  datatype Result<+R, +E> = Success(value: R) | Failure(error: E)
}
